=== FILE: README.md ===
# Thermal printer over BLE: ESC/POS encoder, chunked transport, configuration flow

This project models the core of a Home Assistant integration that prints on a
Bluetooth Low Energy thermal printer. It covers four parts.

- **The command encoder.** The coordinator's four print operations (text, QR
  code, barcode, paper feed) turn a request into a byte-exact ESC/POS buffer.
  Each formatting command (initialise, alignment, size, bold, line feed)
  becomes one `Command`. The text, the nine QR extends and the barcode
  set-up and data extends are each grouped into one `Literal`. The buffer is
  the serialization of that command list. The model gives two independent readings
  of every buffer:
  - a printer's formatting state (alignment, size, bold) that the commands act
    on;
  - a device-side reader for the length-prefixed vendor blocks (`GS ( k` for
    QR, `GS k` CODE128).
- **The transport.** `_send_to_printer` walks the buffer in 20-byte frames and
  pauses after each write. The model pairs it with a recursive reference split
  and records the writes and pauses as an event trace.
- **The connection state.** The coordinator holds an optional bleak client and
  a cached `is_connected` flag. These are acted on by `_connect`, `disconnect`
  and the periodic `_async_update_data`, and `_connect` gates every print
  operation.
- **The configuration flow.** It covers the MAC address validator, the upper
  casing and storing of the address in the user step, and the labels given to
  scanned Bluetooth devices.

Modules:
- `Common`: bytes, `Option`, flattening, ASCII case mapping, substring test.
- `Const`: `thermal_printer/const.py`, including the configuration key
  `mac_address`.
- `Commands`: the command datatype, its encoding, the formatting-state semantics.
- `Encoder`: the four buffer builders.
- `Reader`: the device-side parsers.
- `Chunker`: the 20-byte split.
- `Connection`: `_connect`, `disconnect`, `_async_update_data`.
- `Session`: `_send_to_printer` and the four print operations.
- `MacAddress`: `_is_valid_mac`.
- `ConfigFlow`: `async_step_user` and `_discover_bluetooth_devices`.

Parameters stand in for the outside world:
- the bytes the text codec returned;
- the QR data's strict UTF-8 encoding, or its absence when that encoding
  raised (a lone surrogate in the string);
- how the radio connect goes: the link comes up, `connect()` returns false,
  or it raises;
- which frame write raises, if any;
- whether a disconnect succeeds;
- the outcome of the configuration flow's test connection;
- the list of scanned devices.

A Python exception raised while a buffer is built becomes the outcome
`Failed(InvalidArgument)` of the print operation. Three examples are
`bytes([size])` with a size past 255, `data.encode('utf-8')` on QR data holding
a lone surrogate, and `data.encode('ascii')` on non-ASCII barcode data. This outcome follows the successful connect and comes before any write,
as in the source.

Behaviour of the code worth knowing, all of it modelled as written:
- **A failed frame write does not clear `is_connected`.** Only `_connect` and
  a successful `disconnect` touch the flag (`Session.JobGuarantees`: the state after a job is
  whatever `_connect` left).
- **The periodic refresh trusts the cached flag.** It reconnects only when the
  flag is clear. After a silent link drop it keeps reporting "connected"
  without an attempt (`Connection.RefreshTrustsCachedFlag`). Its exception
  handler cannot be reached, because `_connect` catches everything itself.
- **`_connect` does not look at what `connect()` returns.** Unless the call
  raises, the flag is set and success reported. A false return therefore
  leaves the flag set with the link down: the print then fails with "not
  connected", and the refresh keeps reporting "connected" without a retry
  (`Connection.FalseReturnSetsFlag`). The configuration flow's test
  connection does check the return value.
- **A pause follows every frame, including the last.**
- **A disconnect that raises leaves the flag set.** `disconnect` has no
  handler, so the error reaches the caller before the flag is cleared
  (`Connection.FailedDisconnectKeepsFlag`).
- **The text is not filtered.** Control bytes in it reach the printer as
  commands. A text starting with `GS ( k` turns the line feed and the reset
  that follow it into a block header announcing 6922 bytes
  (`Reader.TextCanCarryCommand`).
- **An unsupported barcode type is not an error.** It produces the set-up
  bytes and the final alignment and nothing else.
- **The QR module size is not validated to 1–16.** Any value that fits one
  byte goes out verbatim. A negative `feed_paper` count feeds nothing.
- **The MAC pattern ends in `$`, which Python also matches before one final
  newline.** So "AA:BB:CC:DD:EE:FF\n" is accepted and stored with its newline.

## Model

| member | source | states |
|---|---|---|
| Const.CommandFamilies | thermal_printer/const.py:13-29 | the service defaults are "normal" and "left"; initialise and line feed are the bytes 1B 40 and 0A; alignment, bold and size are three-byte families that differ only in the parameter byte |
| Commands.DecodeEncode | thermal_printer/const.py:21-29 | a printer reading any fixed command's bytes recognises exactly that command, so no two ESC/POS constants collide |
| Commands.DecodeFixed | thermal_printer/const.py:21-29 | whatever the reader recognises re-encodes to the very bytes it read |
| Encoder.AlignmentOf | custom_components/thermal_printer/__init__.py:130-136 | "center" and "right" select those alignments, and every other string, including unknown ones, selects left |
| Encoder.FontSizeOf | custom_components/thermal_printer/__init__.py:138-142 | only "large" selects the large size; "small", "normal" and anything else print normal |
| Encoder.LittleEndian16 | custom_components/thermal_printer/__init__.py:198-200 | two bytes whose little-endian value is the length; lengths past 16 bits cannot be encoded |
| Encoder.TextBufferLayout | custom_components/thermal_printer/__init__.py:125-162 | the text buffer byte for byte: initialise, the chosen alignment, the chosen size, bold-on only when asked, the codec's bytes, a line feed, then bold off, normal size, left |
| Encoder.TextEndsWithResetTriad | custom_components/thermal_printer/__init__.py:156-162 | for every alignment, size and bold flag, the last ten bytes are line feed, bold off, normal size, left alignment |
| Encoder.TextRestoresDefaults | custom_components/thermal_printer/__init__.py:127-162 | from any printer state, a text job leaves the printer in the state initialise gives, so no formatting leaks into the next job, with the text read as printed characters |
| Encoder.TextPrintedInRequestedFormat | custom_components/thermal_printer/__init__.py:127-154 | from any printer state, when the printer reaches the text it is in exactly the requested alignment, size and boldness |
| Encoder.QrBlocks | custom_components/thermal_printer/__init__.py:185-205 | the five vendor blocks take 41 bytes besides the data |
| Encoder.QrBuffer | custom_components/thermal_printer/__init__.py:177-208 | the QR buffer is 49 bytes longer than the UTF-8 data |
| Encoder.QrBufferLayout | custom_components/thermal_printer/__init__.py:177-208 | initialise and centre, the five blocks, then left alignment; the caller's module size sits unchanged at offset 21 |
| Encoder.QrStoreLengthMatches | custom_components/thermal_printer/__init__.py:196-205 | the store block's 16-bit length field equals the number of bytes after it in the block (three marker bytes plus the data), followed by the print block and left alignment |
| Encoder.QrLengthPastOneByte | custom_components/thermal_printer/__init__.py:197-200 | 300 bytes of data give the length field 303 as the bytes 2F 01, low byte first |
| Encoder.QrRestoresDefaults | custom_components/thermal_printer/__init__.py:179-208 | from any state the blocks print centred, and the job ends in the default state |
| Encoder.AsciiBytes | custom_components/thermal_printer/__init__.py:243 | one byte per character, carrying its code |
| Encoder.BarcodeBufferLayout | custom_components/thermal_printer/__init__.py:222-246 | the set-up, then for CODE128 (in any letter case) the tag, one length byte equal to the data length and the ASCII data; for any other type nothing; left alignment last |
| Encoder.BarcodeRestoresDefaults | custom_components/thermal_printer/__init__.py:224-246 | from any state the barcode prints centred and the job ends in the default state |
| Encoder.FeedBufferIsLineFeeds | custom_components/thermal_printer/__init__.py:260-262 | a feed is exactly max(lines, 0) line-feed bytes: no initialise, no formatting, nothing for zero or negative counts |
| Encoder.FeedKeepsFormat | custom_components/thermal_printer/__init__.py:260-262 | a feed leaves the printer's formatting state as it found it |
| Reader.ReadGsK | custom_components/thermal_printer/__init__.py:196-202 | a block the printer reads is the tag, a length field and exactly that many payload bytes, with the rest of the buffer untouched |
| Reader.ReadGsKBlocks | custom_components/thermal_printer/__init__.py:185-205 | whatever run of blocks the printer reads re-serialises to the buffer it read |
| Reader.ReadBlocks | custom_components/thermal_printer/__init__.py:185-205 | reading back any run of well-sized blocks gives the payloads that were written |
| Reader.QrReadsBack | custom_components/thermal_printer/__init__.py:180-208 | between the centring and the final alignment, a printer finds exactly five blocks: model 2, the module size, correction level L, the stored data and print |
| Reader.TextCanCarryCommand | custom_components/thermal_printer/__init__.py:148-162 | for the text bytes `1D 28 6B`, the printer finds a block header at offset 8 announcing 6922 bytes where only 8 bytes follow the header, so it reads the line feed and the reset commands as block data |
| Reader.ReadCode128 | custom_components/thermal_printer/__init__.py:241-243 | a CODE128 block the printer reads is the tag, a length byte and exactly that many data bytes |
| Reader.AsciiRoundTrip | custom_components/thermal_printer/__init__.py:243 | ASCII-encoding a string and reading the bytes back gives the string |
| Reader.BarcodeReadsBack | custom_components/thermal_printer/__init__.py:222-246 | for CODE128 the printer finds one block whose data spells the request; for any other type no barcode at all, only the 17 set-up and alignment bytes |
| Reader.Code128Keyword | custom_components/thermal_printer/__init__.py:240 | the default type "CODE128" selects the CODE128 block |
| Reader.BarcodeAbcExample | custom_components/thermal_printer/__init__.py:222-246 | the CODE128 job for "ABC" is initialise, centre, the height, width and HRI set-up, then 1D 6B 49 03, the bytes 41 42 43 and left alignment |
| Chunker.FramesIndexed | custom_components/thermal_printer/__init__.py:277-279 | the reference split has ceil(len/20) frames, and frame k is the slice at offset 20k that the source's indexed loop takes, clamped at the end |
| Chunker.FramesReassemble | custom_components/thermal_printer/__init__.py:276-280 | the frames, concatenated in order, give back the buffer |
| Chunker.FrameSizes | custom_components/thermal_printer/__init__.py:277-279 | no frame is empty or longer than 20 bytes, and all but the last are exactly 20 |
| Chunker.FramesPrefix | custom_components/thermal_printer/__init__.py:278-280 | the first k frames cover exactly the first 20k bytes, or the whole buffer |
| Chunker.EmptyHasNoFrames | custom_components/thermal_printer/__init__.py:278 | an empty buffer gives no frames |
| Chunker.FortySevenBytes | custom_components/thermal_printer/__init__.py:277-279 | a 47-byte buffer goes out as frames of 20, 20 and 7 bytes |
| Connection.Connect | custom_components/thermal_printer/__init__.py:89-104 | a live client is kept with no attempt; otherwise one attempt, and success with the flag set unless the call raised, even when `connect()` returned false and the link is down; a live link always means success; a live link never comes with a clear flag |
| Connection.Disconnect | custom_components/thermal_printer/__init__.py:106-110 | nothing happens without a live client; a live client is disconnected, and only when that succeeds is the flag cleared and no link left live; when it raises, the error is reported and the state is unchanged |
| Connection.Refresh | custom_components/thermal_printer/__init__.py:78-87 | reports the cached flag; a set flag means no attempt; a clear one means one attempt, reported connected unless it raised, with the link up only when it came up |
| Connection.ConnectIdempotent | custom_components/thermal_printer/__init__.py:91-99 | after a connect that brought the link up, a second connect returns at once with no attempt, so the two attempt at most one radio connection; after one that reported success with the link down, the second tries again |
| Connection.FalseReturnSetsFlag | custom_components/thermal_printer/__init__.py:96-99 | a `connect()` that returns false still gives success and a set flag with the link down, and from then on the refresh reports connected without trying |
| Connection.DisconnectIdempotent | custom_components/thermal_printer/__init__.py:106-110 | after a disconnect that went through, a second one does nothing |
| Connection.FailedDisconnectKeepsFlag | custom_components/thermal_printer/__init__.py:108-110 | a disconnect that raises leaves the client live and the flag set |
| Connection.RefreshTrustsCachedFlag | custom_components/thermal_printer/__init__.py:80-83 | after a silent link drop the refresh still reports connected and makes no attempt |
| Connection.ReachableConsistent | custom_components/thermal_printer/__init__.py:74-110 | from any state where a live link comes with the flag set, every sequence of connects, disconnects (succeeding or raising), refreshes and link drops keeps it so |
| Connection.ReachableFromInitial | custom_components/thermal_printer/__init__.py:74-110 | from a freshly constructed coordinator (no client, flag clear), every reachable state has the flag set whenever the link is live |
| Session.SendToPrinter | custom_components/thermal_printer/__init__.py:270-285 | without a live client it writes nothing and raises; otherwise it writes the reference frames in order, each followed by a pause, and it stops right after the first write that raises |
| Session.SentReassembles | custom_components/thermal_printer/__init__.py:275-281 | a completed send wrote the whole buffer, in order, in frames of at most 20 bytes |
| Session.SentStopsAtFailure | custom_components/thermal_printer/__init__.py:278-285 | when the write of frame k raises, exactly frames 0..k were written, that is the first 20(k+1) bytes, and no later frame |
| Session.SentEmpty | custom_components/thermal_printer/__init__.py:278 | an empty buffer is sent with no write and no pause |
| Session.Perform | custom_components/thermal_printer/__init__.py:120-169 | the shared shape of a print operation: connect or fail with "cannot connect"; fail without writing when the buffer cannot be built; fail with "not connected" when the client `_connect` left has its link down; otherwise send to that client |
| Session.PrintText | custom_components/thermal_printer/__init__.py:112-169 | connects, then sends the text buffer |
| Session.PrintQrCode | custom_components/thermal_printer/__init__.py:171-214 | connects, then raises without writing when the data cannot be UTF-8 encoded or the size or the data length does not fit, else sends the QR buffer |
| Session.PrintBarcode | custom_components/thermal_printer/__init__.py:216-252 | connects, then raises without writing when CODE128 data is too long or not ASCII, else sends the barcode buffer |
| Session.FeedPaper | custom_components/thermal_printer/__init__.py:254-268 | connects, then sends the feed buffer |
| Session.JobGuarantees | custom_components/thermal_printer/__init__.py:120-121 | a failed connect writes nothing and raises; the send-time "not connected" error surfaces, with nothing written, exactly when a fresh `connect()` returned false and the buffer was built; a completed job wrote exactly its buffer; the state after a job, even a failed write, is the one `_connect` left |
| Session.SecondOfThreeWritesFails | custom_components/thermal_printer/__init__.py:270-285 | when the second write of a 47-byte job raises, the operation fails with that write's error after exactly the first 40 bytes, and the coordinator's state, including its set flag, is unchanged |
| Session.FeedNothing | custom_components/thermal_printer/__init__.py:254-264 | a zero-line feed on a live client writes nothing and succeeds |
| MacAddress.IsValidMacShape | custom_components/thermal_printer/config_flow.py:136-140 | the pattern accepts exactly six hex pairs joined by five separators, each ':' or '-' on its own, with at most one final newline |
| MacAddress.MixedSeparatorsAccepted | custom_components/thermal_printer/config_flow.py:139 | "AA:BB-CC:DD-EE:FF" is accepted |
| MacAddress.TrailingNewlineAccepted | custom_components/thermal_printer/config_flow.py:139-140 | one trailing newline passes, a second one or a seventh hex digit does not |
| MacAddress.UpperKeepsValidity | custom_components/thermal_printer/config_flow.py:42-46 | upper-casing neither makes nor breaks an address |
| Common.Upper | custom_components/thermal_printer/config_flow.py:42 | same length, no lower-case letter left, other characters unchanged, each letter moved to its capital |
| Common.Lower | custom_components/thermal_printer/config_flow.py:121 | same length, no capital left, other characters unchanged, each capital moved to its small letter |
| ConfigFlow.UserStep | custom_components/thermal_printer/config_flow.py:35-72 | no input shows the form; an invalid upper-cased address gives the `invalid_mac` error; an already-configured one aborts; an entry is created exactly for a valid, new address whose test connection succeeded, under the upper-cased address and the given name |
| ConfigFlow.InvalidMacShortCircuits | custom_components/thermal_printer/config_flow.py:45-52 | for an invalid address, neither the configured entries nor the test connection can change the answer |
| ConfigFlow.StoredMacIsNormalised | custom_components/thermal_printer/config_flow.py:42-71 | a stored address is valid, has no lower-case letter, and came from valid input |
| ConfigFlow.Classify | custom_components/thermal_printer/config_flow.py:116-127 | a device is printer-like exactly when it has a non-empty name containing one of the six keywords in any letter case; other named devices and unnamed ones make up the rest |
| ConfigFlow.LabelShowsKindAndAddress | custom_components/thermal_printer/config_flow.py:121-127 | a label's icon tells its device's class, a named device's label shows the name and the address in parentheses, and an unnamed one shows the address |
| ConfigFlow.DiscoverKeys | custom_components/thermal_printer/config_flow.py:108-127 | the discovered map has one key per scanned address and no other |
| ConfigFlow.DiscoverLastWins | custom_components/thermal_printer/config_flow.py:116-127 | an address's label is the one built from the last device scanned with that address |

## Left out

- Text encoding (cp850, with a UTF-8 fallback that replaces bad characters) is not modelled. The print operations take the bytes the codec returned. The codec cannot raise, so it adds no error path.
- The QR data's UTF-8 encoding is taken as a parameter too: its bytes, or nothing when the strict encoding raised. Which strings raise (those holding a lone surrogate) is not modelled, since strings here are sequences of characters without surrogates.
- Bleak I/O is not modelled: the scanner, the GATT write, the characteristic UUID, `asyncio.sleep(0.05)` and the radio connect. They become parameters, or `Write`/`Pause`/`ConnectAttempt` events. The 50 ms duration itself is not modelled.
- The Home Assistant lifecycle is left out: `async_setup_entry`, unloading, service registration and schemas, the 30-second update interval and logging. None of it is part of the encoder, the transport or the connection state.
- The configuration flow's form rendering is left out: the device selector's schema, `description_placeholders`, and the Bluetooth confirm step. So is the scan run when the form is shown while no devices are known yet. `UserStep` returns only the form's errors.
- The exception handler of `_discover_bluetooth_devices` is left out. A scan that raises gives an empty map, and the scan is a parameter here.
- The `"Dispositivo Desconhecido"` fallback name is not modelled. It is computed but never shown: an unnamed device's label uses the address alone.
- Encoder.TextRestoresDefaults: the formatting-state reading takes the text to be printed characters. It does not hold for text carrying ESC, GS, FS or DLE bytes, which the code passes through unfiltered; `Reader.TextCanCarryCommand` shows one such text swallowing the reset.
- Operations are taken to run one at a time. The coordinator has no lock. Two service calls, or a refresh and a print, can interleave at their awaits (the connect at `__init__.py:96`, the write and the pause at :280-281), so frames of two jobs could mix on the wire. That interleaving is not modelled.
- A disconnect that raises is taken to leave the link as it was. What bleak leaves behind after a failed disconnect is not modelled.
- Common.Upper: only ASCII letters are mapped, where Python's `str.upper` maps all of Unicode. This is exact for the CODE128 type test. For a MAC address it misses Unicode letters whose capital is ASCII hex; for example U+FB00 upper-cases to "FF". The source would accept such an input and the model rejects it.
- Common.Lower: ASCII only, like `Upper`. Python also lower-cases non-ASCII capitals before the keyword test. Because every keyword is ASCII, the only effect is on non-ASCII capitals that lower-case to ASCII; for example the Kelvin sign U+212A lower-cases to 'k'.
- ConfigFlow.UserStep: the abort for an already configured address and entry creation are return values. Home Assistant's unique-id bookkeeping is not modelled.

=== FILE: chunker.dfy ===
/** Splitting a command buffer into the frames written to the printer's
    BLE characteristic, at most `CHUNK_SIZE` bytes each. */
module Chunker {
  import opened Common

  /** The per-write limit of `_send_to_printer`. */
  const CHUNK_SIZE: nat := 20

  /** The reference split: the first `CHUNK_SIZE` bytes (or all of them
      when fewer remain), then the split of the rest. */
  function Frames(data: seq<byte>): seq<seq<byte>>
    decreases |data|
  {
    if |data| == 0 then []
    else if |data| <= CHUNK_SIZE then [data]
    else [data[..CHUNK_SIZE]] + Frames(data[CHUNK_SIZE..])
  }

  /** `ceil(n / CHUNK_SIZE)`. */
  function FrameCount(n: nat): nat
  {
    (n + CHUNK_SIZE - 1) / CHUNK_SIZE
  }

  /** The frame at offset `i` of the source's `range(0, len(data), 20)`
      loop: `data[i:i + 20]`, which Python clamps at the end. */
  function FrameAt(data: seq<byte>, i: nat): seq<byte>
    requires i <= |data|
  {
    data[i..Min(i + CHUNK_SIZE, |data|)]
  }

  /** The reference split agrees with the source's indexed loop: there are
      `ceil(len / 20)` frames and frame `k` starts at offset `20 * k`. */
  lemma {:induction false} FramesIndexed(data: seq<byte>)
    ensures |Frames(data)| == FrameCount(|data|)
    ensures forall k :: 0 <= k < |Frames(data)| ==>
      k * CHUNK_SIZE <= |data| && Frames(data)[k] == FrameAt(data, k * CHUNK_SIZE)
    decreases |data|
  {
    if |data| > CHUNK_SIZE {
      var rest := data[CHUNK_SIZE..];
      FramesIndexed(rest);
      var fs := Frames(data);
      assert fs == [data[..CHUNK_SIZE]] + Frames(rest);
      forall k | 0 <= k < |fs|
        ensures k * CHUNK_SIZE <= |data| && fs[k] == FrameAt(data, k * CHUNK_SIZE)
      {
        if k > 0 {
          assert fs[k] == Frames(rest)[k - 1];
          assert (k - 1) * CHUNK_SIZE + CHUNK_SIZE == k * CHUNK_SIZE;
          assert FrameAt(rest, (k - 1) * CHUNK_SIZE) == FrameAt(data, k * CHUNK_SIZE);
        }
      }
    }
  }

  /** The frames, written in order, put the buffer back together. */
  lemma {:induction false} FramesReassemble(data: seq<byte>)
    ensures Flatten(Frames(data)) == data
    decreases |data|
  {
    if |data| == 0 {
    } else if |data| <= CHUNK_SIZE {
      assert [data][1..] == [];
    } else {
      FramesReassemble(data[CHUNK_SIZE..]);
      assert ([data[..CHUNK_SIZE]] + Frames(data[CHUNK_SIZE..]))[1..] == Frames(data[CHUNK_SIZE..]);
    }
  }

  /** No frame is empty or longer than the limit, and every frame but the
      last is exactly `CHUNK_SIZE` long. */
  lemma {:induction false} FrameSizes(data: seq<byte>)
    ensures forall k :: 0 <= k < |Frames(data)| ==> 0 < |Frames(data)[k]| <= CHUNK_SIZE
    ensures forall k :: 0 <= k < |Frames(data)| - 1 ==> |Frames(data)[k]| == CHUNK_SIZE
    decreases |data|
  {
    if |data| > CHUNK_SIZE {
      FrameSizes(data[CHUNK_SIZE..]);
      var fs := Frames(data);
      assert fs == [data[..CHUNK_SIZE]] + Frames(data[CHUNK_SIZE..]);
      assert forall k :: 0 < k < |fs| ==> fs[k] == Frames(data[CHUNK_SIZE..])[k - 1];
    }
  }

  /** The first `k` frames cover exactly the first `20 * k` bytes. */
  lemma {:induction false} FramesPrefix(data: seq<byte>, k: nat)
    requires k <= |Frames(data)|
    ensures Flatten(Frames(data)[..k]) == data[..Min(k * CHUNK_SIZE, |data|)]
    decreases |data|
  {
    if k == 0 {
    } else if |data| <= CHUNK_SIZE {
      assert Frames(data)[..k] == [data];
      assert [data][1..] == [];
    } else {
      var rest := data[CHUNK_SIZE..];
      FramesPrefix(rest, k - 1);
      var fs := Frames(data);
      assert fs[..k] == [data[..CHUNK_SIZE]] + Frames(rest)[..k - 1];
      assert ([data[..CHUNK_SIZE]] + Frames(rest)[..k - 1])[1..] == Frames(rest)[..k - 1];
      assert Min((k - 1) * CHUNK_SIZE, |rest|) + CHUNK_SIZE == Min(k * CHUNK_SIZE, |data|);
      assert data[..CHUNK_SIZE] + rest[..Min((k - 1) * CHUNK_SIZE, |rest|)] == data[..Min(k * CHUNK_SIZE, |data|)];
    }
  }

  /** An empty buffer gives no frames at all, hence no writes. */
  lemma EmptyHasNoFrames()
    ensures Frames([]) == []
  {
  }

  /** A 47-byte buffer goes out as frames of 20, 20 and 7 bytes. */
  lemma FortySevenBytes(data: seq<byte>)
    requires |data| == 47
    ensures |Frames(data)| == 3
    ensures |Frames(data)[0]| == 20 && |Frames(data)[1]| == 20 && |Frames(data)[2]| == 7
  {
    FramesIndexed(data);
  }
}

=== FILE: commands.dfy ===
/** The ESC/POS commands the encoder emits, their byte encodings, a
    reader that recognises each fixed command, and the printer's
    formatting state that the commands act on.  Each formatting command
    of the encoder is one `Command`; the text and the vendor QR and
    barcode blocks are each grouped into one `Literal`. */
module Commands {
  import opened Common
  import opened Const

  datatype Alignment = Left | Center | Right
  datatype FontSize = Normal | Large

  /** The formatting state a printer carries from one job to the next. */
  datatype Format = Format(align: Alignment, size: FontSize, bold: bool)

  /** What ESC @ leaves behind: left aligned, normal size, bold off. */
  const DefaultFormat: Format := Format(Left, Normal, false)

  datatype Command =
    | Init
    | SetAlign(alignment: Alignment)
    | SetSize(size: FontSize)
    | SetBold(on: bool)
    | LineFeed
      /** Bytes taken to leave the formatting state alone: the text, read
          as printed characters, and the vendor QR and barcode blocks. */
    | Literal(bytes: seq<byte>)

  function Encode(c: Command): seq<byte>
  {
    match c
    case Init => ESC_INIT
    case SetAlign(Left) => ESC_ALIGN_LEFT
    case SetAlign(Center) => ESC_ALIGN_CENTER
    case SetAlign(Right) => ESC_ALIGN_RIGHT
    case SetSize(Normal) => ESC_SIZE_NORMAL
    case SetSize(Large) => ESC_SIZE_LARGE
    case SetBold(on) => if on then ESC_BOLD_ON else ESC_BOLD_OFF
    case LineFeed => ESC_LINE_FEED
    case Literal(bytes) => bytes
  }

  /** The buffer a list of commands builds, appended in order. */
  function Serialize(cmds: seq<Command>): seq<byte>
  {
    if |cmds| == 0 then [] else Encode(cmds[0]) + Serialize(cmds[1..])
  }

  lemma {:induction false} SerializeAppend(a: seq<Command>, b: seq<Command>)
    ensures Serialize(a + b) == Serialize(a) + Serialize(b)
    decreases |a|
  {
    if |a| == 0 {
      assert a + b == b;
    } else {
      assert (a + b)[1..] == a[1..] + b;
      SerializeAppend(a[1..], b);
    }
  }

  lemma SerializeCons(a: Command, rest: seq<Command>)
    ensures Serialize([a] + rest) == Encode(a) + Serialize(rest)
  {
    assert ([a] + rest)[1..] == rest;
  }

  lemma SerializeOne(a: Command)
    ensures Serialize([a]) == Encode(a)
  {
    assert [a][1..] == [];
  }

  lemma SerializeThree(a: Command, b: Command, c: Command)
    ensures Serialize([a, b, c]) == Encode(a) + Encode(b) + Encode(c)
  {
    assert [a, b, c] == [a] + ([b] + [c]);
    SerializeCons(a, [b] + [c]);
    SerializeCons(b, [c]);
    SerializeOne(c);
  }

  lemma SerializeFour(a: Command, b: Command, c: Command, d: Command)
    ensures Serialize([a, b, c, d]) == Encode(a) + Encode(b) + Encode(c) + Encode(d)
  {
    assert [a, b, c, d] == [a] + [b, c, d];
    SerializeCons(a, [b, c, d]);
    SerializeThree(b, c, d);
  }

  lemma SerializeFive(a: Command, b: Command, c: Command, d: Command, e: Command)
    ensures Serialize([a, b, c, d, e]) == Encode(a) + Encode(b) + Encode(c) + Encode(d) + Encode(e)
  {
    assert [a, b, c, d, e] == [a] + [b, c, d, e];
    SerializeCons(a, [b, c, d, e]);
    SerializeFour(b, c, d, e);
  }

  /** How a printer reads one of the fixed formatting commands. */
  function DecodeFixed(bytes: seq<byte>): (r: Option<Command>)
    ensures r.Some? ==> !r.value.Literal? && Encode(r.value) == bytes
  {
    if bytes == ESC_INIT then Some(Init)
    else if bytes == ESC_LINE_FEED then Some(LineFeed)
    else if |bytes| != 3 then None
    else if bytes[..2] == [0x1B, 0x61] then
      (if bytes[2] == 0x00 then Some(SetAlign(Left))
       else if bytes[2] == 0x01 then Some(SetAlign(Center))
       else if bytes[2] == 0x02 then Some(SetAlign(Right))
       else None)
    else if bytes[..2] == [0x1D, 0x21] then
      (if bytes[2] == 0x00 then Some(SetSize(Normal))
       else if bytes[2] == 0x11 then Some(SetSize(Large))
       else None)
    else if bytes[..2] == [0x1B, 0x45] then
      (if bytes[2] == 0x01 then Some(SetBold(true))
       else if bytes[2] == 0x00 then Some(SetBold(false))
       else None)
    else None
  }

  /** Every fixed command is read back as itself, so no two of the
      constants collide. */
  lemma DecodeEncode(c: Command)
    requires !c.Literal?
    ensures DecodeFixed(Encode(c)) == Some(c)
  {
    var b := Encode(c);
    match c
    case SetAlign(_) => assert b[..2] == [0x1B, 0x61];
    case SetSize(_) => assert b[..2] == [0x1D, 0x21];
    case SetBold(_) => assert b[..2] == [0x1B, 0x45];
    case _ =>
  }

  /** The effect of one command on the printer's formatting state. */
  function Apply(f: Format, c: Command): Format
  {
    match c
    case Init => DefaultFormat
    case SetAlign(a) => f.(align := a)
    case SetSize(s) => f.(size := s)
    case SetBold(on) => f.(bold := on)
    case LineFeed => f
    case Literal(_) => f
  }

  /** The formatting state after a printer executes `cmds` from `f`. */
  function Run(f: Format, cmds: seq<Command>): Format
    decreases |cmds|
  {
    if |cmds| == 0 then f else Run(Apply(f, cmds[0]), cmds[1..])
  }

  lemma {:induction false} RunAppend(f: Format, a: seq<Command>, b: seq<Command>)
    ensures Run(f, a + b) == Run(Run(f, a), b)
    decreases |a|
  {
    if |a| == 0 {
      assert a + b == b;
    } else {
      assert (a + b)[1..] == a[1..] + b;
      RunAppend(Apply(f, a[0]), a[1..], b);
    }
  }

  lemma RunOne(f: Format, a: Command)
    ensures Run(f, [a]) == Apply(f, a)
  {
    assert [a][1..] == [];
  }

  lemma RunThree(f: Format, a: Command, b: Command, c: Command)
    ensures Run(f, [a, b, c]) == Apply(Apply(Apply(f, a), b), c)
  {
    assert [a, b, c] == [a] + [b] + [c];
    RunAppend(f, [a] + [b], [c]);
    RunAppend(f, [a], [b]);
    RunOne(f, a);
    RunOne(Apply(f, a), b);
    RunOne(Apply(Apply(f, a), b), c);
  }

  lemma RunFive(f: Format, a: Command, b: Command, c: Command, d: Command, e: Command)
    ensures Run(f, [a, b, c, d, e]) == Run(Apply(Apply(f, a), b), [c, d, e])
  {
    assert [a, b, c, d, e] == [a] + [b] + [c, d, e];
    RunAppend(f, [a] + [b], [c, d, e]);
    RunAppend(f, [a], [b]);
    RunOne(f, a);
    RunOne(Apply(f, a), b);
  }

  /** A run of commands that never touches the formatting state. */
  predicate FormatNeutral(cmds: seq<Command>)
  {
    forall i :: 0 <= i < |cmds| ==> cmds[i].LineFeed? || cmds[i].Literal?
  }

  lemma {:induction false} RunNeutral(f: Format, cmds: seq<Command>)
    requires FormatNeutral(cmds)
    ensures Run(f, cmds) == f
    decreases |cmds|
  {
    if |cmds| > 0 {
      assert cmds[0].LineFeed? || cmds[0].Literal?;
      RunNeutral(f, cmds[1..]);
    }
  }
}

=== FILE: common.dfy ===
/** Shared vocabulary: bytes, optional values, concatenation of byte runs
    and the ASCII case mappings the integration relies on. */
module Common {

  /** One octet, as Python's `bytes`/`bytearray` elements. */
  newtype byte = b: int | 0 <= b < 256

  datatype Option<+T> = None | Some(value: T)

  function Min(a: int, b: int): int
  {
    if a <= b then a else b
  }

  function Max(a: int, b: int): int
  {
    if a <= b then b else a
  }

  /** Concatenation of byte runs, in order. */
  function Flatten(runs: seq<seq<byte>>): seq<byte>
  {
    if |runs| == 0 then [] else runs[0] + Flatten(runs[1..])
  }

  lemma {:induction false} FlattenAppend(a: seq<seq<byte>>, b: seq<seq<byte>>)
    ensures Flatten(a + b) == Flatten(a) + Flatten(b)
    decreases |a|
  {
    if |a| == 0 {
      assert a + b == b;
    } else {
      assert (a + b)[1..] == a[1..] + b;
      FlattenAppend(a[1..], b);
    }
  }

  /** `n` copies of one byte. */
  function Repeat(b: byte, n: nat): (r: seq<byte>)
    ensures |r| == n
    ensures forall i :: 0 <= i < n ==> r[i] == b
  {
    if n == 0 then [] else [b] + Repeat(b, n - 1)
  }

  predicate IsLowerAscii(c: char)
  {
    'a' <= c <= 'z'
  }

  predicate IsUpperAscii(c: char)
  {
    'A' <= c <= 'Z'
  }

  /** `str.upper()` restricted to the ASCII letters; every other
      character is left as it is. */
  function Upper(s: string): (r: string)
    ensures |r| == |s|
    ensures forall i :: 0 <= i < |s| ==> !IsLowerAscii(r[i])
    ensures forall i :: 0 <= i < |s| && !IsLowerAscii(s[i]) ==> r[i] == s[i]
    ensures forall i :: 0 <= i < |s| && IsLowerAscii(s[i]) ==> r[i] as int == s[i] as int - 32
  {
    seq(|s|, i requires 0 <= i < |s| =>
      if IsLowerAscii(s[i]) then (s[i] as int - 32) as char else s[i])
  }

  /** Upper-casing a string with no lower-case letter changes nothing. */
  lemma UpperFixesUpper(s: string)
    requires forall i :: 0 <= i < |s| ==> !IsLowerAscii(s[i])
    ensures Upper(s) == s
  {
    var u := Upper(s);
    assert forall i :: 0 <= i < |s| ==> u[i] == s[i];
  }

  /** `str.lower()` restricted to the ASCII letters. */
  function Lower(s: string): (r: string)
    ensures |r| == |s|
    ensures forall i :: 0 <= i < |s| ==> !IsUpperAscii(r[i])
    ensures forall i :: 0 <= i < |s| && !IsUpperAscii(s[i]) ==> r[i] == s[i]
    ensures forall i :: 0 <= i < |s| && IsUpperAscii(s[i]) ==> r[i] as int == s[i] as int + 32
  {
    seq(|s|, i requires 0 <= i < |s| =>
      if IsUpperAscii(s[i]) then (s[i] as int + 32) as char else s[i])
  }

  /** Python's `needle in haystack` on strings. */
  predicate Contains(haystack: string, needle: string)
    decreases |haystack|
  {
    needle <= haystack || (|haystack| > 0 && Contains(haystack[1..], needle))
  }
}

=== FILE: configflow.dfy ===
/** The decision logic of the configuration flow: the manual step that
    upper-cases, validates and stores a MAC address, and the labels given
    to discovered Bluetooth devices.  The BLE scan and the test connection
    are parameters. */
module ConfigFlow {
  import opened Common
  import opened MacAddress
  import opened Const

  const BASE_ERROR: string := "base"

  datatype UserInput = UserInput(macAddress: string, name: string)

  /** How the test connection went: `connect()` returned true (and the
      disconnect after it returned), returned false, or raised. */
  datatype ConnectionTest = Connected | Refused | Raised

  datatype FlowResult =
    | ShowForm(errors: map<string, string>)
    | AbortAlreadyConfigured
    | CreateEntry(title: string, macAddress: string, name: string)

  /** `async_step_user`: `configured` holds the unique ids (MAC addresses)
      of the entries that already exist. */
  function UserStep(input: Option<UserInput>, configured: set<string>, test: ConnectionTest): (r: FlowResult)
    ensures input.None? ==> r == ShowForm(map[])
    ensures input.Some? && !IsValidMac(Upper(input.value.macAddress)) ==>
      r == ShowForm(map[CONF_MAC_ADDRESS := "invalid_mac"])
    ensures r.AbortAlreadyConfigured? <==>
      input.Some? && IsValidMac(Upper(input.value.macAddress)) && Upper(input.value.macAddress) in configured
    ensures r.CreateEntry? <==>
      input.Some? && IsValidMac(Upper(input.value.macAddress))
      && Upper(input.value.macAddress) !in configured && test == Connected
    ensures r.CreateEntry? ==>
      r.macAddress == Upper(input.value.macAddress) && r.title == input.value.name && r.name == input.value.name
  {
    match input
    case None => ShowForm(map[])
    case Some(u) =>
      var mac := Upper(u.macAddress);
      if !IsValidMac(mac) then ShowForm(map[CONF_MAC_ADDRESS := "invalid_mac"])
      else if mac in configured then AbortAlreadyConfigured
      else if test == Connected then CreateEntry(u.name, mac, u.name)
      else ShowForm(map[BASE_ERROR := "cannot_connect"])
  }

  /** An invalid address is turned away before the duplicate check and the
      test connection: neither can change the answer. */
  lemma InvalidMacShortCircuits(u: UserInput, configured1: set<string>, test1: ConnectionTest,
                                configured2: set<string>, test2: ConnectionTest)
    requires !IsValidMac(Upper(u.macAddress))
    ensures UserStep(Some(u), configured1, test1) == UserStep(Some(u), configured2, test2)
  {
  }

  /** A stored address is a valid one with no lower-case letters, and
      lower-case input such as "aa:bb:cc:dd:ee:ff" is stored upper-cased. */
  lemma StoredMacIsNormalised(input: Option<UserInput>, configured: set<string>, test: ConnectionTest)
    requires UserStep(input, configured, test).CreateEntry?
    ensures var mac := UserStep(input, configured, test).macAddress;
      IsValidMac(mac) && IsValidMac(input.value.macAddress)
      && forall i :: 0 <= i < |mac| ==> !IsLowerAscii(mac[i])
  {
    UpperKeepsValidity(input.value.macAddress);
  }

  // ----------------------------------------------------- device labels

  datatype Device = Device(name: Option<string>, address: string)

  const PRINTER_KEYWORDS: seq<string> := ["printer", "thermal", "pos", "receipt", "impressora", "print"]

  const PRINTER_ICON: string := "\U{1F5A8}"
  const NAMED_ICON: string := "\U{1F4F1}"
  const UNNAMED_ICON: string := "\U{2753}"

  /** A missing name and an empty one are both falsy in Python. */
  predicate HasName(d: Device)
  {
    d.name.Some? && d.name.value != ""
  }

  predicate LooksLikePrinter(name: string)
  {
    exists k :: k in PRINTER_KEYWORDS && Contains(Lower(name), k)
  }

  datatype DeviceKind = PrinterLike | OtherNamed | Unnamed

  function Classify(d: Device): (k: DeviceKind)
    ensures k == PrinterLike <==> HasName(d) && LooksLikePrinter(d.name.value)
    ensures k == OtherNamed <==> HasName(d) && !LooksLikePrinter(d.name.value)
    ensures k == Unnamed <==> !HasName(d)
  {
    if HasName(d) && LooksLikePrinter(d.name.value) then PrinterLike
    else if HasName(d) then OtherNamed
    else Unnamed
  }

  /** The label shown for a device in the selector. */
  function Label(d: Device): string
  {
    match Classify(d)
    case PrinterLike => PRINTER_ICON + " " + d.name.value + " (" + d.address + ")"
    case OtherNamed => NAMED_ICON + " " + d.name.value + " (" + d.address + ")"
    case Unnamed => UNNAMED_ICON + " " + d.address
  }

  /** How a reader of the selector tells the three kinds apart: by the
      leading icon. */
  function KindOfLabel(shown: string): Option<DeviceKind>
  {
    if |shown| == 0 then None
    else if shown[0] == PRINTER_ICON[0] then Some(PrinterLike)
    else if shown[0] == NAMED_ICON[0] then Some(OtherNamed)
    else if shown[0] == UNNAMED_ICON[0] then Some(Unnamed)
    else None
  }

  /** Every label carries its device's class in its icon and its address
      verbatim: named devices also show the name. */
  lemma LabelShowsKindAndAddress(d: Device)
    ensures KindOfLabel(Label(d)) == Some(Classify(d))
    ensures HasName(d) ==> Label(d)[2..2 + |d.name.value|] == d.name.value
    ensures HasName(d) ==> Label(d)[|Label(d)| - |d.address| - 1..|Label(d)| - 1] == d.address
    ensures !HasName(d) ==> Label(d)[2..] == d.address
  {
    var l := Label(d);
    if HasName(d) {
      var icon := if Classify(d) == PrinterLike then PRINTER_ICON else NAMED_ICON;
      assert l == (icon + " ") + d.name.value + (" (" + d.address + ")");
      assert l[2..2 + |d.name.value|] == d.name.value;
      assert l == (icon + " " + d.name.value + " (") + d.address + ")";
    } else {
      assert l == (UNNAMED_ICON + " ") + d.address;
    }
  }

  /** `_discover_bluetooth_devices`: labels keyed by address, in scan
      order, so a later device with an address already seen replaces the
      earlier label. */
  function Discover(devices: seq<Device>): map<string, string>
    decreases |devices|
  {
    if |devices| == 0 then map[]
    else
      var last := devices[|devices| - 1];
      Discover(devices[..|devices| - 1])[last.address := Label(last)]
  }

  /** The keys are exactly the scanned addresses. */
  lemma {:induction false} DiscoverKeys(devices: seq<Device>)
    ensures Discover(devices).Keys == set i | 0 <= i < |devices| :: devices[i].address
    decreases |devices|
  {
    if |devices| > 0 {
      var init := devices[..|devices| - 1];
      DiscoverKeys(init);
      var all := set i | 0 <= i < |devices| :: devices[i].address;
      var front := set i | 0 <= i < |init| :: init[i].address;
      assert all == front + {devices[|devices| - 1].address} by {
        forall a | a in all ensures a in front + {devices[|devices| - 1].address} {
          var i :| 0 <= i < |devices| && devices[i].address == a;
          if i < |init| {
            assert init[i].address == a;
          }
        }
        forall a | a in front ensures a in all {
          var i :| 0 <= i < |init| && init[i].address == a;
          assert devices[i].address == a;
        }
      }
    }
  }

  /** The label kept for an address is that of the last device scanned
      with it. */
  lemma {:induction false} DiscoverLastWins(devices: seq<Device>, j: nat)
    requires j < |devices|
    requires forall k :: j < k < |devices| ==> devices[k].address != devices[j].address
    ensures devices[j].address in Discover(devices)
    ensures Discover(devices)[devices[j].address] == Label(devices[j])
    decreases |devices|
  {
    if j < |devices| - 1 {
      var init := devices[..|devices| - 1];
      assert forall k :: j < k < |init| ==> init[k].address != init[j].address;
      DiscoverLastWins(init, j);
    }
  }
}

=== FILE: connection.dfy ===
/** The coordinator's connection state: the `client` it holds, whose link
    bleak reports as up or down, and its own cached `is_connected` flag.
    Connecting, disconnecting and the periodic refresh act on these two;
    how the radio connect goes is a parameter. */
module Connection {
  import opened Common

  /** A bleak client, reduced to what bleak's `is_connected` reports. */
  datatype Client = Client(linkUp: bool)

  datatype Conn = Conn(client: Option<Client>, isConnected: bool)

  /** A freshly constructed coordinator: no client, flag cleared. */
  const Initial: Conn := Conn(None, false)

  /** What the coordinator does on the transport. */
  datatype Event = ConnectAttempt | DisconnectCall | Write(frame: seq<byte>) | Pause

  /** `self.client and self.client.is_connected`: a client exists and its
      link is up.  This, not the cached flag, is what gates a connect. */
  predicate Live(c: Conn)
  {
    c.client.Some? && c.client.value.linkUp
  }

  /** The cached flag never lags behind a live link. */
  predicate Consistent(c: Conn)
  {
    Live(c) ==> c.isConnected
  }

  /** How bleak's `connect()` goes: the link comes up, the call returns
      false with the link down, or the call raises. */
  datatype ConnectOutcome = Linked | ReturnedFalse | Raised

  datatype ConnectResult = ConnectResult(ok: bool, conn: Conn, trace: seq<Event>)

  /** `_connect`: return at once when the current client is live;
      otherwise replace the client and try once.  The value `connect()`
      returns is not looked at: whenever the call does not raise, the flag
      is set and success reported, even with the link down.  A raising
      attempt clears the flag and reports false instead of raising. */
  function Connect(c: Conn, attempt: ConnectOutcome): (r: ConnectResult)
    ensures Consistent(c) ==> (r.ok <==> r.conn.isConnected)
    ensures Live(r.conn) ==> r.ok
    ensures r.ok && !Live(r.conn) <==> !Live(c) && attempt == ReturnedFalse
    ensures Live(c) ==> r.ok && r.conn == c && r.trace == []
    ensures !Live(c) ==> r.trace == [ConnectAttempt] && (r.ok <==> attempt != Raised)
    ensures !Live(c) ==> r.conn.client.Some? && (Live(r.conn) <==> attempt == Linked)
    ensures Consistent(c) ==> Consistent(r.conn)
  {
    if Live(c) then ConnectResult(true, c, [])
    else
      match attempt
      case Linked => ConnectResult(true, Conn(Some(Client(true)), true), [ConnectAttempt])
      case ReturnedFalse => ConnectResult(true, Conn(Some(Client(false)), true), [ConnectAttempt])
      case Raised => ConnectResult(false, Conn(Some(Client(false)), false), [ConnectAttempt])
  }

  datatype DisconnectResult = DisconnectResult(ok: bool, conn: Conn, trace: seq<Event>)

  /** `disconnect`: only a live client is disconnected, and only then is
      the flag cleared; otherwise nothing happens.  Bleak's disconnect can
      raise, and `disconnect` has no handler: the error reaches the caller
      and the flag stays set. */
  function Disconnect(c: Conn, disconnectSucceeds: bool): (r: DisconnectResult)
    ensures r.ok <==> !Live(c) || disconnectSucceeds
    ensures r.ok ==> !Live(r.conn)
    ensures Live(c) ==> r.trace == [DisconnectCall]
    ensures Live(c) && disconnectSucceeds ==> !r.conn.isConnected && r.conn.client.Some?
    ensures Live(c) && !disconnectSucceeds ==> r.conn == c && r.conn.isConnected == c.isConnected
    ensures !Live(c) ==> r.conn == c && r.trace == []
    ensures Consistent(c) ==> Consistent(r.conn)
  {
    if !Live(c) then DisconnectResult(true, c, [])
    else if disconnectSucceeds then DisconnectResult(true, Conn(Some(Client(false)), false), [DisconnectCall])
    else DisconnectResult(false, c, [DisconnectCall])
  }

  /** The radio link drops without the coordinator noticing: bleak's flag
      goes down, the coordinator's cached flag stays as it was. */
  function LinkDrops(c: Conn): (r: Conn)
    ensures !Live(r) && r.isConnected == c.isConnected
    ensures Consistent(r)
  {
    match c.client
    case None => c
    case Some(_) => c.(client := Some(Client(false)))
  }

  datatype RefreshResult = RefreshResult(connected: bool, conn: Conn, trace: seq<Event>)

  /** `_async_update_data`: connect only when the cached flag is clear,
      then report the cached flag.  `_connect` never raises, so the
      handler for a failed refresh is never reached. */
  function Refresh(c: Conn, attempt: ConnectOutcome): (r: RefreshResult)
    ensures r.connected == r.conn.isConnected
    ensures c.isConnected ==> r.connected && r.conn == c && r.trace == []
    ensures !c.isConnected && Consistent(c) ==>
      r.trace == [ConnectAttempt] && (r.connected <==> attempt != Raised) && (Live(r.conn) <==> attempt == Linked)
    ensures Consistent(c) ==> Consistent(r.conn)
  {
    if !c.isConnected then
      var s := Connect(c, attempt);
      RefreshResult(s.conn.isConnected, s.conn, s.trace)
    else RefreshResult(c.isConnected, c, [])
  }

  /** Connecting twice in a row: once the first call has brought the link
      up the second returns at once, so the two together attempt at most
      one radio connection.  A first call that reported success with the
      link down is no guard: the second tries again. */
  lemma ConnectIdempotent(c: Conn, first: ConnectOutcome, second: ConnectOutcome)
    ensures var s := Connect(c, first);
      Live(s.conn) ==> Connect(s.conn, second) == ConnectResult(true, s.conn, [])
    ensures var s := Connect(c, first);
      s.ok && !Live(s.conn) ==> Connect(s.conn, second).trace == [ConnectAttempt]
    ensures |Connect(c, first).trace| <= 1
  {
  }

  /** A `connect()` that returns false without raising: `_connect` still
      reports success and sets the flag, the link is down, and from then on
      the refresh trusts the flag and never tries again. */
  lemma FalseReturnSetsFlag(c: Conn, later: ConnectOutcome)
    requires !Live(c)
    ensures var s := Connect(c, ReturnedFalse);
      s.ok && s.conn.isConnected && !Live(s.conn)
      && Refresh(s.conn, later) == RefreshResult(true, s.conn, [])
  {
  }

  /** Once a disconnect has gone through, a second one does nothing. */
  lemma DisconnectIdempotent(c: Conn, first: bool, second: bool)
    ensures var d := Disconnect(c, first);
      d.ok ==> Disconnect(d.conn, second) == DisconnectResult(true, d.conn, [])
  {
  }

  /** A disconnect that raises changes nothing, so the coordinator still
      believes it is connected, and the link may well still be up. */
  lemma FailedDisconnectKeepsFlag(c: Conn)
    requires Live(c) && Consistent(c)
    ensures var d := Disconnect(c, false);
      !d.ok && d.conn == c && d.conn.isConnected && Live(d.conn)
  {
  }

  /** After a silent link drop the refresh still reports connected, with
      no reconnect attempt: it trusts the cached flag. */
  lemma RefreshTrustsCachedFlag(c: Conn, attempt: ConnectOutcome)
    requires Live(c) && Consistent(c)
    ensures var r := Refresh(LinkDrops(c), attempt);
      r.connected && r.trace == [] && !Live(r.conn)
  {
  }

  /** Everything that can happen to the connection state. */
  datatype Action =
    | DoConnect(attempt: ConnectOutcome)
    | DoDisconnect(disconnectSucceeds: bool)
    | DoRefresh(refreshAttempt: ConnectOutcome)
    | DropLink

  function Step(c: Conn, a: Action): Conn
  {
    match a
    case DoConnect(attempt) => Connect(c, attempt).conn
    case DoDisconnect(ok) => Disconnect(c, ok).conn
    case DoRefresh(attempt) => Refresh(c, attempt).conn
    case DropLink => LinkDrops(c)
  }

  function Replay(c: Conn, actions: seq<Action>): Conn
    decreases |actions|
  {
    if |actions| == 0 then c else Replay(Step(c, actions[0]), actions[1..])
  }

  /** Whatever happens, a live link always comes with the flag set.  The
      converse does not hold: a silent drop leaves the flag set. */
  lemma {:induction false} ReachableConsistent(c: Conn, actions: seq<Action>)
    requires Consistent(c)
    ensures Consistent(Replay(c, actions))
    decreases |actions|
  {
    if |actions| > 0 {
      var next := Step(c, actions[0]);
      assert Consistent(next);
      ReachableConsistent(next, actions[1..]);
    }
  }

  /** A fresh coordinator is consistent, so every state it can reach is. */
  lemma ReachableFromInitial(actions: seq<Action>)
    ensures Consistent(Replay(Initial, actions))
  {
    ReachableConsistent(Initial, actions);
  }
}

=== FILE: const.dfy ===
/** The integration's constants: service defaults and the fixed ESC/POS
    byte sequences the encoder splices into every command buffer. */
module Const {
  import opened Common

  /** The configuration entry's key for the printer's address. */
  const CONF_MAC_ADDRESS: string := "mac_address"

  const DEFAULT_FONT_SIZE: string := "normal"
  const DEFAULT_ALIGNMENT: string := "left"

  /** ESC @ : initialise the printer. */
  const ESC_INIT: seq<byte> := [0x1B, 0x40]
  /** ESC a n : justification. */
  const ESC_ALIGN_LEFT: seq<byte> := [0x1B, 0x61, 0x00]
  const ESC_ALIGN_CENTER: seq<byte> := [0x1B, 0x61, 0x01]
  const ESC_ALIGN_RIGHT: seq<byte> := [0x1B, 0x61, 0x02]
  /** ESC E n : emphasised mode. */
  const ESC_BOLD_ON: seq<byte> := [0x1B, 0x45, 0x01]
  const ESC_BOLD_OFF: seq<byte> := [0x1B, 0x45, 0x00]
  /** GS ! n : character size (0x11 doubles width and height). */
  const ESC_SIZE_NORMAL: seq<byte> := [0x1D, 0x21, 0x00]
  const ESC_SIZE_LARGE: seq<byte> := [0x1D, 0x21, 0x11]
  /** LF : print and feed one line. */
  const ESC_LINE_FEED: seq<byte> := [0x0A]

  /** A command of the three-byte `prefix, prefix, parameter` shape. */
  predicate InFamily(cmd: seq<byte>, p0: byte, p1: byte, parameter: byte)
  {
    cmd == [p0, p1, parameter]
  }

  /** The command constants form three families that differ only in
      their parameter byte; the initialiser and the line feed stand alone. */
  lemma CommandFamilies()
    ensures ESC_INIT == [0x1B, 0x40]
    ensures InFamily(ESC_ALIGN_LEFT, 0x1B, 0x61, 0x00)
    ensures InFamily(ESC_ALIGN_CENTER, 0x1B, 0x61, 0x01)
    ensures InFamily(ESC_ALIGN_RIGHT, 0x1B, 0x61, 0x02)
    ensures InFamily(ESC_BOLD_ON, 0x1B, 0x45, 0x01)
    ensures InFamily(ESC_BOLD_OFF, 0x1B, 0x45, 0x00)
    ensures InFamily(ESC_SIZE_NORMAL, 0x1D, 0x21, 0x00)
    ensures InFamily(ESC_SIZE_LARGE, 0x1D, 0x21, 0x11)
    ensures ESC_LINE_FEED == [0x0A]
    ensures DEFAULT_FONT_SIZE == "normal" && DEFAULT_ALIGNMENT == "left"
  {
  }
}

=== FILE: encoder.dfy ===
/** The four byte builders of `ThermalPrinterCoordinator`: text, QR code,
    barcode and paper feed.  Each builds a list of commands and its buffer
    is that list serialized: every formatting command is one `Command`,
    while the text and the vendor QR and barcode blocks are each one
    `Literal`. */
module Encoder {
  import opened Common
  import opened Const
  import opened Commands

  // Vendor QR blocks, `GS ( k pL pH cn fn ...`.
  const QR_MODEL: seq<byte> := [0x1D, 0x28, 0x6B, 0x04, 0x00, 0x31, 0x41, 0x32, 0x00]
  const QR_SIZE_PREFIX: seq<byte> := [0x1D, 0x28, 0x6B, 0x03, 0x00, 0x31, 0x43]
  const QR_ECC: seq<byte> := [0x1D, 0x28, 0x6B, 0x03, 0x00, 0x31, 0x45, 0x30]
  const QR_STORE_TAG: seq<byte> := [0x1D, 0x28, 0x6B]
  const QR_STORE_MARK: seq<byte> := [0x31, 0x50, 0x30]
  const QR_PRINT: seq<byte> := [0x1D, 0x28, 0x6B, 0x03, 0x00, 0x31, 0x51, 0x30]

  // Barcode set-up: height 100 dots, module width 2, HRI below.
  const BARCODE_HEIGHT: seq<byte> := [0x1D, 0x68, 0x64]
  const BARCODE_WIDTH: seq<byte> := [0x1D, 0x77, 0x02]
  const BARCODE_HRI: seq<byte> := [0x1D, 0x48, 0x02]
  /** `GS k m` with m = 73, the CODE128 form that carries a length byte. */
  const CODE128_TAG: seq<byte> := [0x1D, 0x6B, 0x49]

  /** The request's `alignment` string: only "center" and "right" are
      recognised, everything else prints left aligned. */
  function AlignmentOf(alignment: string): (a: Alignment)
    ensures a == Center <==> alignment == "center"
    ensures a == Right <==> alignment == "right"
    ensures a == Left <==> alignment != "center" && alignment != "right"
  {
    if alignment == "center" then Center
    else if alignment == "right" then Right
    else Left
  }

  /** The request's `font_size` string: only "large" is recognised;
      "small", "normal" and anything else print at normal size. */
  function FontSizeOf(fontSize: string): (s: FontSize)
    ensures s == Large <==> fontSize == "large"
  {
    if fontSize == "large" then Large else Normal
  }

  /** `n.to_bytes(2, 'little')`, which raises for values past 16 bits. */
  function LittleEndian16(n: int): (r: seq<byte>)
    requires 0 <= n < 0x1_0000
    ensures |r| == 2
    ensures r[0] as int + 256 * r[1] as int == n
  {
    [(n % 256) as byte, (n / 256) as byte]
  }

  // ---------------------------------------------------------------- text

  /** `textBytes` is what the text codec returned (code page 850, or
      UTF-8 with replacement when that fails); the codec cannot fail. */
  function TextCommands(textBytes: seq<byte>, fontSize: string, alignment: string, bold: bool): seq<Command>
  {
    [Init, SetAlign(AlignmentOf(alignment)), SetSize(FontSizeOf(fontSize))]
    + (if bold then [SetBold(true)] else [])
    + [Literal(textBytes), LineFeed, SetBold(false), SetSize(Normal), SetAlign(Left)]
  }

  function TextBuffer(textBytes: seq<byte>, fontSize: string, alignment: string, bold: bool): seq<byte>
  {
    Serialize(TextCommands(textBytes, fontSize, alignment, bold))
  }

  /** The command that selects the requested alignment, as bytes. */
  function AlignmentBytes(alignment: string): seq<byte>
  {
    if alignment == "center" then ESC_ALIGN_CENTER
    else if alignment == "right" then ESC_ALIGN_RIGHT
    else ESC_ALIGN_LEFT
  }

  function SizeBytes(fontSize: string): seq<byte>
  {
    if fontSize == "large" then ESC_SIZE_LARGE else ESC_SIZE_NORMAL
  }

  lemma AlignmentEncoding(alignment: string)
    ensures Encode(SetAlign(AlignmentOf(alignment))) == AlignmentBytes(alignment)
  {
  }

  lemma SizeEncoding(fontSize: string)
    ensures Encode(SetSize(FontSizeOf(fontSize))) == SizeBytes(fontSize)
  {
  }

  lemma TextHeadBytes(fontSize: string, alignment: string)
    ensures Serialize([Init, SetAlign(AlignmentOf(alignment)), SetSize(FontSizeOf(fontSize))])
      == ESC_INIT + AlignmentBytes(alignment) + SizeBytes(fontSize)
  {
    SerializeThree(Init, SetAlign(AlignmentOf(alignment)), SetSize(FontSizeOf(fontSize)));
    AlignmentEncoding(alignment);
    SizeEncoding(fontSize);
  }

  lemma TextTailBytes(textBytes: seq<byte>)
    ensures Serialize([Literal(textBytes), LineFeed, SetBold(false), SetSize(Normal), SetAlign(Left)])
      == (textBytes + ESC_LINE_FEED) + (ESC_BOLD_OFF + ESC_SIZE_NORMAL + ESC_ALIGN_LEFT)
  {
    SerializeFive(Literal(textBytes), LineFeed, SetBold(false), SetSize(Normal), SetAlign(Left));
  }

  /** The text buffer byte for byte: initialise, alignment, size, bold
      when asked, the text and a line feed, then the reset triad. */
  lemma TextBufferLayout(textBytes: seq<byte>, fontSize: string, alignment: string, bold: bool)
    ensures TextBuffer(textBytes, fontSize, alignment, bold) ==
      (ESC_INIT + AlignmentBytes(alignment) + SizeBytes(fontSize))
      + (if bold then ESC_BOLD_ON else [])
      + (textBytes + ESC_LINE_FEED)
      + (ESC_BOLD_OFF + ESC_SIZE_NORMAL + ESC_ALIGN_LEFT)
  {
    var head := [Init, SetAlign(AlignmentOf(alignment)), SetSize(FontSizeOf(fontSize))];
    var boldCmd: seq<Command> := if bold then [SetBold(true)] else [];
    var tail := [Literal(textBytes), LineFeed, SetBold(false), SetSize(Normal), SetAlign(Left)];
    assert TextCommands(textBytes, fontSize, alignment, bold) == head + boldCmd + tail;
    SerializeAppend(head + boldCmd, tail);
    SerializeAppend(head, boldCmd);
    TextHeadBytes(fontSize, alignment);
    TextTailBytes(textBytes);
    var h := ESC_INIT + AlignmentBytes(alignment) + SizeBytes(fontSize);
    var t1 := textBytes + ESC_LINE_FEED;
    var t2 := ESC_BOLD_OFF + ESC_SIZE_NORMAL + ESC_ALIGN_LEFT;
    if bold {
      SerializeOne(SetBold(true));
      assert TextBuffer(textBytes, fontSize, alignment, bold) == (h + ESC_BOLD_ON) + (t1 + t2);
    } else {
      assert Serialize(boldCmd) == [];
      assert TextBuffer(textBytes, fontSize, alignment, bold) == (h + []) + (t1 + t2);
    }
  }

  /** Whatever the alignment, size and bold flag, the text buffer ends
      with a line feed followed by bold off, normal size and left
      alignment, in that order. */
  lemma TextEndsWithResetTriad(textBytes: seq<byte>, fontSize: string, alignment: string, bold: bool)
    ensures var buf := TextBuffer(textBytes, fontSize, alignment, bold);
      |buf| >= 10 + |textBytes| && buf[|buf| - 10..] == ESC_LINE_FEED + ESC_BOLD_OFF + ESC_SIZE_NORMAL + ESC_ALIGN_LEFT
  {
    TextBufferLayout(textBytes, fontSize, alignment, bold);
    var buf := TextBuffer(textBytes, fontSize, alignment, bold);
    var front := (ESC_INIT + AlignmentBytes(alignment) + SizeBytes(fontSize))
      + (if bold then ESC_BOLD_ON else []) + textBytes;
    var back := ESC_LINE_FEED + (ESC_BOLD_OFF + ESC_SIZE_NORMAL + ESC_ALIGN_LEFT);
    assert buf == front + back;
    assert buf[|front|..] == back;
  }

  /** Whatever formatting the printer was left in, a text job leaves it in
      the default state, so no formatting leaks into the next job. */
  lemma {:induction false} TextRestoresDefaults(f: Format, textBytes: seq<byte>, fontSize: string, alignment: string, bold: bool)
    ensures Run(f, TextCommands(textBytes, fontSize, alignment, bold)) == DefaultFormat
  {
    var head := [Init, SetAlign(AlignmentOf(alignment)), SetSize(FontSizeOf(fontSize))];
    var boldCmd: seq<Command> := if bold then [SetBold(true)] else [];
    var tail := [Literal(textBytes), LineFeed, SetBold(false), SetSize(Normal), SetAlign(Left)];
    assert TextCommands(textBytes, fontSize, alignment, bold) == (head + boldCmd) + tail;
    RunAppend(f, head + boldCmd, tail);
    var g := Run(f, head + boldCmd);
    RunFive(g, Literal(textBytes), LineFeed, SetBold(false), SetSize(Normal), SetAlign(Left));
    RunThree(g, SetBold(false), SetSize(Normal), SetAlign(Left));
  }

  /** The text is printed in exactly the requested format: the state in
      force when the printer reaches the text is the one the request asks
      for, whatever state the printer started in. */
  lemma {:induction false} TextPrintedInRequestedFormat(f: Format, textBytes: seq<byte>, fontSize: string, alignment: string, bold: bool)
    ensures var cmds := TextCommands(textBytes, fontSize, alignment, bold);
      var k := if bold then 4 else 3;
      k < |cmds| && cmds[k] == Literal(textBytes)
      && Run(f, cmds[..k]) == Format(AlignmentOf(alignment), FontSizeOf(fontSize), bold)
  {
    var cmds := TextCommands(textBytes, fontSize, alignment, bold);
    var head := [Init, SetAlign(AlignmentOf(alignment)), SetSize(FontSizeOf(fontSize))];
    var k := if bold then 4 else 3;
    RunThree(f, Init, SetAlign(AlignmentOf(alignment)), SetSize(FontSizeOf(fontSize)));
    var g := Run(f, head);
    assert g == DefaultFormat.(align := AlignmentOf(alignment), size := FontSizeOf(fontSize));
    if bold {
      assert cmds[..k] == head + [SetBold(true)];
      RunAppend(f, head, [SetBold(true)]);
      assert [SetBold(true)][1..] == [];
    } else {
      assert cmds[..k] == head;
    }
  }

  // ------------------------------------------------------------- QR code

  /** The QR job raises instead of building a buffer when the module size
      does not fit one byte or the length field does not fit 16 bits. */
  predicate QrEncodable(utf8Data: seq<byte>, size: int)
  {
    0 <= size < 256 && |utf8Data| + 3 < 0x1_0000
  }

  /** The five vendor `GS ( k` blocks, appended in the coordinator's order:
      model, module size, error correction, store data, print. */
  function QrBlocks(utf8Data: seq<byte>, size: int): (r: seq<byte>)
    requires QrEncodable(utf8Data, size)
    ensures |r| == 41 + |utf8Data|
  {
    QR_MODEL
    + (QR_SIZE_PREFIX + [size as byte])
    + QR_ECC
    + (QR_STORE_TAG + LittleEndian16(|utf8Data| + 3) + (QR_STORE_MARK + utf8Data))
    + QR_PRINT
  }

  /** `utf8Data` is the UTF-8 encoding of the request's data.  The QR
      blocks leave the formatting state alone. */
  function QrCommands(utf8Data: seq<byte>, size: int): seq<Command>
    requires QrEncodable(utf8Data, size)
  {
    [Init, SetAlign(Center), Literal(QrBlocks(utf8Data, size)), SetAlign(Left)]
  }

  function QrBuffer(utf8Data: seq<byte>, size: int): (r: seq<byte>)
    requires QrEncodable(utf8Data, size)
    ensures |r| == 49 + |utf8Data|
  {
    SerializeFour(Init, SetAlign(Center), Literal(QrBlocks(utf8Data, size)), SetAlign(Left));
    Serialize(QrCommands(utf8Data, size))
  }

  /** The QR buffer byte for byte: initialise, centre, the five blocks
      with the caller's module size verbatim at offset 21, then left
      alignment. */
  lemma QrBufferLayout(utf8Data: seq<byte>, size: int)
    requires QrEncodable(utf8Data, size)
    ensures QrBuffer(utf8Data, size) == ESC_INIT + ESC_ALIGN_CENTER + QrBlocks(utf8Data, size) + ESC_ALIGN_LEFT
    ensures QrBuffer(utf8Data, size)[21] as int == size
  {
    SerializeFour(Init, SetAlign(Center), Literal(QrBlocks(utf8Data, size)), SetAlign(Left));
  }

  /** Where the store block's parts sit in a buffer shaped like the QR
      job, whatever their contents. */
  lemma QrOffsets(head: seq<byte>, model: seq<byte>, sizeBlock: seq<byte>, ecc: seq<byte>,
                  tag: seq<byte>, len: seq<byte>, body: seq<byte>, printBlock: seq<byte>, tail: seq<byte>)
    requires |head| == 5 && |model| == 9 && |sizeBlock| == 8 && |ecc| == 8 && |tag| == 3 && |len| == 2
    ensures var b := head + (model + sizeBlock + ecc + (tag + len + body) + printBlock) + tail;
      b[30..33] == tag && b[33] == len[0] && b[34] == len[1]
      && b[35..35 + |body|] == body && b[35 + |body|..] == printBlock + tail
  {
    var b := head + (model + sizeBlock + ecc + (tag + len + body) + printBlock) + tail;
    var front := head + model + sizeBlock + ecc;
    assert b == front + tag + len + body + (printBlock + tail);
    assert b[30..33] == tag;
    assert b[35..35 + |body|] == body;
    assert b[35 + |body|..] == printBlock + tail;
  }

  /** The store block's length field counts exactly the bytes after it:
      the three marker bytes and the data. */
  lemma QrStoreLengthMatches(utf8Data: seq<byte>, size: int)
    requires QrEncodable(utf8Data, size)
    ensures var buf := QrBuffer(utf8Data, size);
      buf[30..33] == QR_STORE_TAG
      && buf[33] as int + 256 * buf[34] as int == |QR_STORE_MARK + utf8Data|
      && buf[35..38 + |utf8Data|] == QR_STORE_MARK + utf8Data
      && buf[38 + |utf8Data|..] == QR_PRINT + ESC_ALIGN_LEFT
  {
    QrBufferLayout(utf8Data, size);
    QrOffsets(ESC_INIT + ESC_ALIGN_CENTER, QR_MODEL, QR_SIZE_PREFIX + [size as byte], QR_ECC,
              QR_STORE_TAG, LittleEndian16(|utf8Data| + 3), QR_STORE_MARK + utf8Data, QR_PRINT, ESC_ALIGN_LEFT);
  }

  /** Data of 300 bytes: the length field, 303, spills into its high
      byte, low byte first. */
  lemma QrLengthPastOneByte(utf8Data: seq<byte>, size: int)
    requires 0 <= size < 256 && |utf8Data| == 300
    ensures var buf := QrBuffer(utf8Data, size);
      buf[33] == 0x2F && buf[34] == 0x01
  {
    QrStoreLengthMatches(utf8Data, size);
  }

  /** A QR job prints its blocks centred and ends left aligned at default
      size and weight, whatever state the printer was in. */
  lemma {:induction false} QrRestoresDefaults(f: Format, utf8Data: seq<byte>, size: int)
    requires QrEncodable(utf8Data, size)
    ensures Run(f, QrCommands(utf8Data, size)[..3]) == DefaultFormat.(align := Center)
    ensures Run(f, QrCommands(utf8Data, size)) == DefaultFormat
  {
    var cmds := QrCommands(utf8Data, size);
    assert cmds[..3] == [Init, SetAlign(Center), cmds[2]];
    RunThree(f, Init, SetAlign(Center), cmds[2]);
    assert cmds == cmds[..3] + [SetAlign(Left)];
    RunAppend(f, cmds[..3], [SetAlign(Left)]);
    RunOne(Run(f, cmds[..3]), SetAlign(Left));
  }

  // ------------------------------------------------------------- barcode

  /** `barcode_type.upper() == "CODE128"`. */
  predicate IsCode128(barcodeType: string)
  {
    Upper(barcodeType) == "CODE128"
  }

  predicate IsAscii(s: string)
  {
    forall i :: 0 <= i < |s| ==> s[i] as int < 128
  }

  /** `s.encode('ascii')`. */
  function AsciiBytes(s: string): (r: seq<byte>)
    requires IsAscii(s)
    ensures |r| == |s|
    ensures forall i :: 0 <= i < |s| ==> r[i] as int == s[i] as int
  {
    seq(|s|, i requires 0 <= i < |s| => s[i] as int as byte)
  }

  /** A CODE128 job raises instead of building a buffer when the length
      does not fit one byte or the data is not ASCII; other barcode types
      never look at the data. */
  predicate BarcodeEncodable(data: string, barcodeType: string)
  {
    IsCode128(barcodeType) ==> |data| < 256 && IsAscii(data)
  }

  /** Height, width and HRI position, then for CODE128 the tag, one length
      byte and the ASCII data; any other barcode type adds nothing. */
  function BarcodeBlocks(data: string, barcodeType: string): seq<byte>
    requires BarcodeEncodable(data, barcodeType)
  {
    BARCODE_HEIGHT + BARCODE_WIDTH + BARCODE_HRI
    + (if IsCode128(barcodeType) then CODE128_TAG + [|data| as byte] + AsciiBytes(data) else [])
  }

  function BarcodeCommands(data: string, barcodeType: string): seq<Command>
    requires BarcodeEncodable(data, barcodeType)
  {
    [Init, SetAlign(Center), Literal(BarcodeBlocks(data, barcodeType)), SetAlign(Left)]
  }

  function BarcodeBuffer(data: string, barcodeType: string): seq<byte>
    requires BarcodeEncodable(data, barcodeType)
  {
    Serialize(BarcodeCommands(data, barcodeType))
  }

  const BARCODE_SETUP: seq<byte> := ESC_INIT + ESC_ALIGN_CENTER + BARCODE_HEIGHT + BARCODE_WIDTH + BARCODE_HRI

  /** The barcode buffer byte for byte: set-up, then for CODE128 the tag,
      one length byte equal to the data length and the ASCII data, and for
      any other type nothing; always left alignment last. */
  lemma BarcodeBufferLayout(data: string, barcodeType: string)
    requires BarcodeEncodable(data, barcodeType)
    ensures IsCode128(barcodeType) ==>
      BarcodeBuffer(data, barcodeType) == BARCODE_SETUP + CODE128_TAG + [|data| as byte] + AsciiBytes(data) + ESC_ALIGN_LEFT
    ensures !IsCode128(barcodeType) ==>
      BarcodeBuffer(data, barcodeType) == BARCODE_SETUP + ESC_ALIGN_LEFT
  {
    SerializeFour(Init, SetAlign(Center), Literal(BarcodeBlocks(data, barcodeType)), SetAlign(Left));
  }

  /** A barcode job prints centred and ends in the default format,
      whatever came before. */
  lemma {:induction false} BarcodeRestoresDefaults(f: Format, data: string, barcodeType: string)
    requires BarcodeEncodable(data, barcodeType)
    ensures Run(f, BarcodeCommands(data, barcodeType)[..3]) == DefaultFormat.(align := Center)
    ensures Run(f, BarcodeCommands(data, barcodeType)) == DefaultFormat
  {
    var cmds := BarcodeCommands(data, barcodeType);
    assert cmds[..3] == [Init, SetAlign(Center), cmds[2]];
    RunThree(f, Init, SetAlign(Center), cmds[2]);
    assert cmds == cmds[..3] + [SetAlign(Left)];
    RunAppend(f, cmds[..3], [SetAlign(Left)]);
    RunOne(Run(f, cmds[..3]), SetAlign(Left));
  }

  // ---------------------------------------------------------- paper feed

  /** `for _ in range(lines)`: a negative count feeds nothing. */
  function FeedCommands(lines: int): seq<Command>
  {
    seq(Max(lines, 0), _ => LineFeed)
  }

  function FeedBuffer(lines: int): seq<byte>
  {
    Serialize(FeedCommands(lines))
  }

  lemma {:induction false} SerializeLineFeeds(n: nat)
    ensures Serialize(seq(n, _ => LineFeed)) == Repeat(0x0A, n)
  {
    if n > 0 {
      var cmds := seq(n, _ => LineFeed);
      assert cmds[1..] == seq(n - 1, _ => LineFeed);
      SerializeLineFeeds(n - 1);
    }
  }

  /** A feed is `lines` line-feed bytes and nothing else: no initialise
      and no formatting, and no bytes at all for zero lines. */
  lemma FeedBufferIsLineFeeds(lines: int)
    ensures FeedBuffer(lines) == Repeat(0x0A, Max(lines, 0))
    ensures |FeedBuffer(lines)| == Max(lines, 0)
    ensures lines <= 0 ==> FeedBuffer(lines) == []
  {
    SerializeLineFeeds(Max(lines, 0));
  }

  /** A feed keeps whatever formatting the printer is in. */
  lemma FeedKeepsFormat(f: Format, lines: int)
    ensures Run(f, FeedCommands(lines)) == f
  {
    RunNeutral(f, FeedCommands(lines));
  }
}

=== FILE: mac.dfy ===
/** The MAC address check of the configuration flow: the pattern
    `^([0-9A-Fa-f]{2}[:-]){5}([0-9A-Fa-f]{2})$` applied with `re.match`.
    Python's `$` also matches just before a final newline, and the model
    keeps that: one trailing "\n" is accepted. */
module MacAddress {
  import opened Common

  predicate IsHexDigit(c: char)
  {
    '0' <= c <= '9' || 'A' <= c <= 'F' || 'a' <= c <= 'f'
  }

  predicate IsSeparator(c: char)
  {
    c == ':' || c == '-'
  }

  /** What Python's `$` accepts as the rest of the input. */
  predicate AtEnd(rest: string)
  {
    rest == "" || rest == "\n"
  }

  /** The pattern from the front of `s`, with `groups` repetitions of
      `[0-9A-Fa-f]{2}[:-]` still to match before the final pair. */
  predicate MatchGroups(s: string, groups: nat)
    decreases groups
  {
    && |s| >= 2 && IsHexDigit(s[0]) && IsHexDigit(s[1])
    && if groups == 0 then AtEnd(s[2..])
       else |s| >= 3 && IsSeparator(s[2]) && MatchGroups(s[3..], groups - 1)
  }

  /** `_is_valid_mac`. */
  predicate IsValidMac(s: string)
  {
    MatchGroups(s, 5)
  }

  /** Position `i` of a well-formed address: a separator after every
      second digit, a hex digit elsewhere. */
  predicate WellPlaced(s: string, i: nat)
  {
    i < |s| && if i % 3 == 2 then IsSeparator(s[i]) else IsHexDigit(s[i])
  }

  /** The reference shape, position by position: six hex pairs and five
      separators, each separator chosen independently, with at most a
      final newline after them. */
  predicate MacShape(s: string)
  {
    && (|s| == 17 || (|s| == 18 && s[17] == '\n'))
    && forall i :: 0 <= i < 17 ==> WellPlaced(s, i)
  }

  lemma {:induction false} MatchGroupsShape(s: string, groups: nat)
    ensures MatchGroups(s, groups) <==>
      && (|s| == 3 * groups + 2 || (|s| == 3 * groups + 3 && s[3 * groups + 2] == '\n'))
      && forall i :: 0 <= i < 3 * groups + 2 ==> WellPlaced(s, i)
    decreases groups
  {
    if groups > 0 && |s| >= 3 {
      var t := s[3..];
      MatchGroupsShape(t, groups - 1);
      assert forall i :: 3 <= i < |s| ==> s[i] == t[i - 3];
      assert forall i :: 3 <= i < |s| ==> (WellPlaced(s, i) <==> WellPlaced(t, i - 3));
      if (forall i :: 0 <= i < 3 * groups + 2 ==> WellPlaced(s, i)) {
        assert WellPlaced(s, 0) && WellPlaced(s, 1) && WellPlaced(s, 2);
        forall j | 0 <= j < 3 * (groups - 1) + 2
          ensures WellPlaced(t, j)
        {
          assert WellPlaced(s, j + 3);
        }
      }
      if MatchGroups(s, groups) {
        forall i | 0 <= i < 3 * groups + 2
          ensures WellPlaced(s, i)
        {
          if i >= 3 {
            assert WellPlaced(t, i - 3);
          }
        }
      }
    } else if groups == 0 && |s| >= 2 {
      assert s[2..] == "" <==> |s| == 2;
      assert s[2..] == "\n" <==> |s| == 3 && s[2] == '\n';
      assert WellPlaced(s, 0) <==> IsHexDigit(s[0]);
      assert WellPlaced(s, 1) <==> IsHexDigit(s[1]);
    } else if groups > 0 {
      assert !MatchGroups(s, groups);
    }
  }

  /** The pattern matcher accepts exactly the reference shape. */
  lemma IsValidMacShape(s: string)
    ensures IsValidMac(s) <==> MacShape(s)
  {
    MatchGroupsShape(s, 5);
  }

  /** Separators are matched position by position, so mixed forms pass. */
  lemma MixedSeparatorsAccepted()
    ensures IsValidMac("AA:BB-CC:DD-EE:FF")
  {
  }

  /** The `$` quirk: one trailing newline is accepted, a second is not. */
  lemma TrailingNewlineAccepted()
    ensures IsValidMac("AA:BB:CC:DD:EE:FF\n")
    ensures !IsValidMac("AA:BB:CC:DD:EE:FF\n\n")
    ensures !IsValidMac("AA:BB:CC:DD:EE:FF0")
  {
  }

  lemma UpperCharacter(c: char)
    ensures IsHexDigit(Upper([c])[0]) <==> IsHexDigit(c)
    ensures IsSeparator(Upper([c])[0]) <==> IsSeparator(c)
    ensures Upper([c])[0] == '\n' <==> c == '\n'
  {
  }

  /** Upper-casing neither makes nor breaks an address: lower-case hex is
      accepted and comes out upper case. */
  lemma UpperKeepsValidity(s: string)
    ensures IsValidMac(Upper(s)) <==> IsValidMac(s)
  {
    var u := Upper(s);
    forall i | 0 <= i < |s|
      ensures IsHexDigit(u[i]) <==> IsHexDigit(s[i])
      ensures IsSeparator(u[i]) <==> IsSeparator(s[i])
      ensures u[i] == '\n' <==> s[i] == '\n'
    {
      UpperCharacter(s[i]);
      assert Upper([s[i]])[0] == u[i];
    }
    assert forall i :: 0 <= i < 17 && i < |s| ==> (WellPlaced(u, i) <==> WellPlaced(s, i));
    IsValidMacShape(s);
    IsValidMacShape(u);
  }
}

=== FILE: reader.dfy ===
/** The printer's side of the vendor blocks: how a device reads the
    length-prefixed `GS ( k` blocks of a QR job and the `GS k` CODE128
    block of a barcode job.  Reading back what the encoder wrote is the
    check that every length field matches the bytes that follow it. */
module Reader {
  import opened Common
  import opened Const
  import opened Encoder

  /** `GS ( k pL pH` followed by exactly `pL + 256 * pH` bytes. */
  function GsKBlock(payload: seq<byte>): seq<byte>
    requires |payload| < 0x1_0000
  {
    QR_STORE_TAG + LittleEndian16(|payload|) + payload
  }

  lemma LittleEndianOfBytes(lo: byte, hi: byte)
    ensures LittleEndian16(lo as int + 256 * hi as int) == [lo, hi]
  {
    var n := lo as int + 256 * hi as int;
    assert n % 256 == lo as int && n / 256 == hi as int;
  }

  /** How the printer reads one `GS ( k` block off the front of `buf`:
      the block's payload and what follows it. */
  function ReadGsK(buf: seq<byte>): (r: Option<(seq<byte>, seq<byte>)>)
    ensures r.Some? ==> |r.value.0| < 0x1_0000 && buf == GsKBlock(r.value.0) + r.value.1
  {
    if |buf| < 5 || buf[..3] != QR_STORE_TAG then None
    else
      var n := buf[3] as int + 256 * buf[4] as int;
      if |buf| < 5 + n then None
      else
        LittleEndianOfBytes(buf[3], buf[4]);
        assert buf == buf[..3] + buf[3..5] + buf[5..5 + n] + buf[5 + n..];
        Some((buf[5..5 + n], buf[5 + n..]))
  }

  /** Consecutive blocks, one per payload. */
  function Blocks(payloads: seq<seq<byte>>): seq<byte>
    requires forall i :: 0 <= i < |payloads| ==> |payloads[i]| < 0x1_0000
  {
    if |payloads| == 0 then [] else GsKBlock(payloads[0]) + Blocks(payloads[1..])
  }

  /** How the printer reads a whole run of blocks; `None` when the run
      does not split into well-formed blocks. */
  function ReadGsKBlocks(buf: seq<byte>): (r: Option<seq<seq<byte>>>)
    ensures r.Some? ==>
      (forall i :: 0 <= i < |r.value| ==> |r.value[i]| < 0x1_0000) && Blocks(r.value) == buf
    decreases |buf|
  {
    if |buf| == 0 then Some([])
    else
      match ReadGsK(buf)
      case None => None
      case Some((payload, rest)) =>
        match ReadGsKBlocks(rest)
        case None => None
        case Some(more) =>
          assert ([payload] + more)[1..] == more;
          Some([payload] + more)
  }

  lemma ReadBlock(payload: seq<byte>, rest: seq<byte>)
    requires |payload| < 0x1_0000
    ensures ReadGsK(GsKBlock(payload) + rest) == Some((payload, rest))
  {
    var buf := GsKBlock(payload) + rest;
    var len := LittleEndian16(|payload|);
    assert buf == QR_STORE_TAG + len + payload + rest;
    assert buf[..3] == QR_STORE_TAG;
    assert buf[3] == len[0] && buf[4] == len[1];
    assert buf[5..5 + |payload|] == payload;
    assert buf[5 + |payload|..] == rest;
  }

  /** Writing blocks and reading them back gives the payloads again. */
  lemma {:induction false} ReadBlocks(payloads: seq<seq<byte>>)
    requires forall i :: 0 <= i < |payloads| ==> |payloads[i]| < 0x1_0000
    ensures ReadGsKBlocks(Blocks(payloads)) == Some(payloads)
    decreases |payloads|
  {
    if |payloads| > 0 {
      var rest := Blocks(payloads[1..]);
      ReadBlock(payloads[0], rest);
      assert |GsKBlock(payloads[0])| >= 5;
      ReadBlocks(payloads[1..]);
      assert [payloads[0]] + payloads[1..] == payloads;
    }
  }

  /** The payloads of the five QR blocks: function codes 65 (model 2),
      67 (module size), 69 (error correction L), 80 (store) and 81
      (print), each after the `cn = 49` symbol byte. */
  function QrPayloads(utf8Data: seq<byte>, size: int): seq<seq<byte>>
    requires QrEncodable(utf8Data, size)
  {
    [ [0x31, 0x41, 0x32, 0x00],
      [0x31, 0x43, size as byte],
      [0x31, 0x45, 0x30],
      QR_STORE_MARK + utf8Data,
      [0x31, 0x51, 0x30] ]
  }

  lemma {:induction false} BlocksAppend(a: seq<seq<byte>>, b: seq<seq<byte>>)
    requires forall i :: 0 <= i < |a| ==> |a[i]| < 0x1_0000
    requires forall i :: 0 <= i < |b| ==> |b[i]| < 0x1_0000
    ensures Blocks(a + b) == Blocks(a) + Blocks(b)
    decreases |a|
  {
    if |a| == 0 {
      assert a + b == b;
    } else {
      assert (a + b)[1..] == a[1..] + b;
      BlocksAppend(a[1..], b);
    }
  }

  lemma BlocksOne(p: seq<byte>)
    requires |p| < 0x1_0000
    ensures Blocks([p]) == GsKBlock(p)
  {
    assert [p][1..] == [];
  }

  lemma QrBlocksAreBlocks(utf8Data: seq<byte>, size: int)
    requires QrEncodable(utf8Data, size)
    ensures QrBlocks(utf8Data, size) == Blocks(QrPayloads(utf8Data, size))
  {
    var ps := QrPayloads(utf8Data, size);
    assert GsKBlock(ps[0]) == QR_MODEL;
    assert GsKBlock(ps[1]) == QR_SIZE_PREFIX + [size as byte];
    assert GsKBlock(ps[2]) == QR_ECC;
    assert GsKBlock(ps[3]) == QR_STORE_TAG + LittleEndian16(|utf8Data| + 3) + QR_STORE_MARK + utf8Data;
    assert GsKBlock(ps[4]) == QR_PRINT;
    assert ps == [ps[0]] + [ps[1]] + [ps[2]] + [ps[3]] + [ps[4]];
    BlocksAppend([ps[0]] + [ps[1]] + [ps[2]] + [ps[3]], [ps[4]]);
    BlocksAppend([ps[0]] + [ps[1]] + [ps[2]], [ps[3]]);
    BlocksAppend([ps[0]] + [ps[1]], [ps[2]]);
    BlocksAppend([ps[0]], [ps[1]]);
    BlocksOne(ps[0]);
    BlocksOne(ps[1]);
    BlocksOne(ps[2]);
    BlocksOne(ps[3]);
    BlocksOne(ps[4]);
  }

  /** A printer reading the QR job between the centring and the final
      left alignment finds exactly the five blocks, every length field
      agreeing with its block, and stores exactly the caller's data. */
  lemma QrReadsBack(utf8Data: seq<byte>, size: int)
    requires QrEncodable(utf8Data, size)
    ensures var buf := QrBuffer(utf8Data, size);
      buf[..5] == ESC_INIT + ESC_ALIGN_CENTER
      && buf[|buf| - 3..] == ESC_ALIGN_LEFT
      && ReadGsKBlocks(buf[5..|buf| - 3]) == Some(QrPayloads(utf8Data, size))
  {
    var buf := QrBuffer(utf8Data, size);
    QrBufferLayout(utf8Data, size);
    var blocks := QrBlocks(utf8Data, size);
    assert buf == (ESC_INIT + ESC_ALIGN_CENTER) + blocks + ESC_ALIGN_LEFT;
    assert buf[5..|buf| - 3] == blocks;
    QrBlocksAreBlocks(utf8Data, size);
    ReadBlocks(QrPayloads(utf8Data, size));
  }

  /** The text bytes are not filtered.  Text that begins with `GS ( k`
      (code page 850 keeps those three characters as they are) makes the
      printer read the line feed and the ESC after it as a length field of
      6922 bytes.  So the reset commands and the start of the next job are
      swallowed as block data. */
  lemma TextCanCarryCommand(fontSize: string, alignment: string)
    ensures var buf := TextBuffer(QR_STORE_TAG, fontSize, alignment, false);
      |buf| == 21 && buf[8..11] == QR_STORE_TAG
      && buf[11] as int + 256 * buf[12] as int == 6922
      && ReadGsK(buf[8..]) == None
  {
    TextBufferLayout(QR_STORE_TAG, fontSize, alignment, false);
    var buf := TextBuffer(QR_STORE_TAG, fontSize, alignment, false);
    var head := ESC_INIT + AlignmentBytes(alignment) + SizeBytes(fontSize);
    var reset := ESC_BOLD_OFF + ESC_SIZE_NORMAL + ESC_ALIGN_LEFT;
    assert |head| == 8;
    assert buf == head + QR_STORE_TAG + (ESC_LINE_FEED + reset);
    assert buf[8..11] == QR_STORE_TAG;
    assert buf[11] == 0x0A && buf[12] == 0x1B;
  }

  /** How the printer reads a `GS k 73 n d1..dn` CODE128 block. */
  function ReadCode128(buf: seq<byte>): (r: Option<(seq<byte>, seq<byte>)>)
    ensures r.Some? ==>
      |r.value.0| < 256 && buf == CODE128_TAG + [|r.value.0| as byte] + r.value.0 + r.value.1
  {
    if |buf| < 4 || buf[..3] != CODE128_TAG then None
    else
      var n := buf[3] as int;
      if |buf| < 4 + n then None
      else
        assert buf == buf[..3] + [buf[3]] + buf[4..4 + n] + buf[4 + n..];
        Some((buf[4..4 + n], buf[4 + n..]))
  }

  /** The text a run of ASCII bytes spells. */
  function AsciiText(bytes: seq<byte>): string
  {
    seq(|bytes|, i requires 0 <= i < |bytes| => bytes[i] as int as char)
  }

  lemma AsciiRoundTrip(s: string)
    requires IsAscii(s)
    ensures AsciiText(AsciiBytes(s)) == s
  {
  }

  /** A printer reading a CODE128 job after its set-up finds one CODE128
      block whose length byte covers exactly the data, which spells the
      request's text; for any other barcode type it finds no barcode. */
  lemma BarcodeReadsBack(data: string, barcodeType: string)
    requires BarcodeEncodable(data, barcodeType)
    ensures var buf := BarcodeBuffer(data, barcodeType);
      |buf| >= 17 && buf[..14] == BARCODE_SETUP && buf[|buf| - 3..] == ESC_ALIGN_LEFT
      && (IsCode128(barcodeType) ==>
            ReadCode128(buf[14..]) == Some((AsciiBytes(data), ESC_ALIGN_LEFT))
            && AsciiText(ReadCode128(buf[14..]).value.0) == data)
      && (!IsCode128(barcodeType) ==> |buf| == 17 && ReadCode128(buf[14..]) == None)
  {
    var buf := BarcodeBuffer(data, barcodeType);
    BarcodeBufferLayout(data, barcodeType);
    assert |BARCODE_SETUP| == 14;
    if IsCode128(barcodeType) {
      var block := CODE128_TAG + [|data| as byte] + AsciiBytes(data);
      assert buf == BARCODE_SETUP + (block + ESC_ALIGN_LEFT);
      assert buf[14..] == block + ESC_ALIGN_LEFT;
      var t := buf[14..];
      assert t[..3] == CODE128_TAG;
      assert t[3] as int == |data|;
      assert t[4..4 + |data|] == AsciiBytes(data);
      assert t[4 + |data|..] == ESC_ALIGN_LEFT;
      AsciiRoundTrip(data);
    } else {
      assert buf[14..] == ESC_ALIGN_LEFT;
    }
  }

  /** "CODE128" in upper case names the CODE128 symbology. */
  lemma Code128Keyword()
    ensures IsCode128("CODE128")
  {
    var k := "CODE128";
    assert !IsLowerAscii(k[0]) && !IsLowerAscii(k[1]) && !IsLowerAscii(k[2]) && !IsLowerAscii(k[3]);
    assert !IsLowerAscii(k[4]) && !IsLowerAscii(k[5]) && !IsLowerAscii(k[6]);
    UpperFixesUpper(k);
  }

  /** The CODE128 job for the data "ABC": initialise, centre, the
      height, width and HRI set-up, `GS k 73 3`, the three ASCII bytes,
      then left alignment. */
  lemma BarcodeAbcExample()
    ensures BarcodeBuffer("ABC", "CODE128") ==
      ESC_INIT + ESC_ALIGN_CENTER + BARCODE_HEIGHT + BARCODE_WIDTH + BARCODE_HRI
      + [0x1D, 0x6B, 0x49, 0x03] + [0x41, 0x42, 0x43] + ESC_ALIGN_LEFT
  {
    Code128Keyword();
    BarcodeBufferLayout("ABC", "CODE128");
    var ascii := AsciiBytes("ABC");
    assert ascii[0] == 0x41 && ascii[1] == 0x42 && ascii[2] == 0x43;
    assert ascii == [0x41, 0x42, 0x43];
    assert CODE128_TAG + [3 as byte] == [0x1D, 0x6B, 0x49, 0x03];
  }
}

=== FILE: session.dfy ===
/** The coordinator's four print operations and `_send_to_printer`.
    Each operation connects (or finds the live client), builds its buffer
    and writes it frame by frame, pausing after every frame.  Which frame
    write raises, if any, is a parameter (`failAt`). */
module Session {
  import opened Common
  import opened Encoder
  import opened Chunker
  import opened Connection

  datatype Error =
    | CannotConnect          // `_connect` returned false
    | NotConnected           // `_send_to_printer` found no live client
    | InvalidArgument        // the buffer could not be built
    | WriteFailed(frame: nat)  // the write of this frame raised

  datatype Outcome = Done | Failed(error: Error)

  /** Each frame written, followed by the pause after it. */
  function Paced(frames: seq<seq<byte>>): (r: seq<Event>)
    ensures |r| == 2 * |frames|
  {
    if |frames| == 0 then [] else [Write(frames[0]), Pause] + Paced(frames[1..])
  }

  /** The frames a trace wrote, in order. */
  function Written(trace: seq<Event>): seq<seq<byte>>
  {
    if |trace| == 0 then []
    else if trace[0].Write? then [trace[0].frame] + Written(trace[1..])
    else Written(trace[1..])
  }

  lemma {:induction false} WrittenAppend(a: seq<Event>, b: seq<Event>)
    ensures Written(a + b) == Written(a) + Written(b)
    decreases |a|
  {
    if |a| == 0 {
      assert a + b == b;
    } else {
      assert (a + b)[1..] == a[1..] + b;
      WrittenAppend(a[1..], b);
    }
  }

  lemma {:induction false} WrittenPaced(frames: seq<seq<byte>>)
    ensures Written(Paced(frames)) == frames
    decreases |frames|
  {
    if |frames| > 0 {
      WrittenPaced(frames[1..]);
      WrittenAppend([Write(frames[0]), Pause], Paced(frames[1..]));
      assert [Write(frames[0]), Pause][1..] == [Pause];
      assert [Pause][1..] == [];
    }
  }

  lemma {:induction false} PacedAppend(a: seq<seq<byte>>, b: seq<seq<byte>>)
    ensures Paced(a + b) == Paced(a) + Paced(b)
    decreases |a|
  {
    if |a| == 0 {
      assert a + b == b;
    } else {
      assert (a + b)[1..] == a[1..] + b;
      PacedAppend(a[1..], b);
    }
  }

  /** One more frame of the loop: its write and the pause after it. */
  lemma PacedStep(fs: seq<seq<byte>>, k: nat)
    requires k < |fs|
    ensures Paced(fs[..k + 1]) == Paced(fs[..k]) + [Write(fs[k]), Pause]
  {
    assert fs[..k + 1] == fs[..k] + [fs[k]];
    PacedAppend(fs[..k], [fs[k]]);
    assert Paced([fs[k]]) == [Write(fs[k]), Pause];
  }

  /** What `_send_to_printer` does to a live client: every frame of the
      reference split in order with a pause after each, unless the write
      of frame `k` raises, in which case frames before `k` went out with
      their pauses, frame `k` was attempted, and nothing follows. */
  ghost predicate Sent(data: seq<byte>, failAt: Option<nat>, trace: seq<Event>, outcome: Outcome)
  {
    var fs := Frames(data);
    if failAt.Some? && failAt.value < |fs| then
      trace == Paced(fs[..failAt.value]) + [Write(fs[failAt.value])]
      && outcome == Failed(WriteFailed(failAt.value))
    else
      trace == Paced(fs) && outcome == Done
  }

  /** `_send_to_printer`: refuse without a live client, otherwise walk
      `range(0, len(data), CHUNK_SIZE)`, writing `data[i:i + 20]` and
      pausing after each write. */
  method SendToPrinter(c: Conn, data: seq<byte>, failAt: Option<nat>) returns (trace: seq<Event>, outcome: Outcome)
    ensures !Live(c) ==> trace == [] && outcome == Failed(NotConnected)
    ensures Live(c) ==> Sent(data, failAt, trace, outcome)
  {
    if !Live(c) {
      return [], Failed(NotConnected);
    }
    FramesIndexed(data);
    ghost var fs := Frames(data);
    trace := [];
    var i := 0;
    var k := 0;
    while i < |data|
      invariant k <= |fs| && i == k * CHUNK_SIZE
      invariant i < |data| <==> k < |fs|
      invariant failAt.Some? ==> k <= failAt.value
      invariant trace == Paced(fs[..k])
      decreases |data| - i
    {
      var frame := data[i..Min(i + CHUNK_SIZE, |data|)];
      assert frame == fs[k];
      if failAt == Some(k) {
        return trace + [Write(frame)], Failed(WriteFailed(k));
      }
      PacedStep(fs, k);
      trace := trace + [Write(frame), Pause];
      i := i + CHUNK_SIZE;
      k := k + 1;
    }
    assert fs[..k] == fs;
    outcome := Done;
  }

  /** A completed send wrote the whole buffer, in order, in frames of at
      most `CHUNK_SIZE` bytes. */
  lemma SentReassembles(data: seq<byte>, failAt: Option<nat>, trace: seq<Event>)
    requires Sent(data, failAt, trace, Done)
    ensures Written(trace) == Frames(data)
    ensures Flatten(Written(trace)) == data
    ensures forall k :: 0 <= k < |Written(trace)| ==> |Written(trace)[k]| <= CHUNK_SIZE
  {
    WrittenPaced(Frames(data));
    FramesReassemble(data);
    FrameSizes(data);
  }

  /** A send whose write of frame `k` raised wrote frames `0..k` and no
      later one: exactly the first `20 * (k + 1)` bytes (or all of them). */
  lemma SentStopsAtFailure(data: seq<byte>, k: nat, trace: seq<Event>)
    requires Sent(data, Some(k), trace, Failed(WriteFailed(k)))
    ensures k < |Frames(data)|
    ensures Written(trace) == Frames(data)[..k + 1]
    ensures Flatten(Written(trace)) == data[..Min((k + 1) * CHUNK_SIZE, |data|)]
  {
    var fs := Frames(data);
    WrittenAppend(Paced(fs[..k]), [Write(fs[k])]);
    WrittenPaced(fs[..k]);
    assert [Write(fs[k])][1..] == [];
    assert fs[..k + 1] == fs[..k] + [fs[k]];
    FramesPrefix(data, k + 1);
  }

  /** Sending an empty buffer writes nothing and succeeds. */
  lemma SentEmpty(failAt: Option<nat>, trace: seq<Event>, outcome: Outcome)
    requires Sent([], failAt, trace, outcome)
    ensures trace == [] && outcome == Done
  {
  }

  /** One print operation: connect or find the live client, raise
      `CannotConnect` when that fails; then build the buffer (`None` when
      building raised) and send it to the client `_connect` left behind,
      which refuses with `NotConnected` when that client's link is down.
      Sending never changes the connection state. */
  ghost predicate Job(c: Conn, attempt: ConnectOutcome, failAt: Option<nat>, buffer: Option<seq<byte>>,
                      next: Conn, trace: seq<Event>, outcome: Outcome)
  {
    var s := Connect(c, attempt);
    && next == s.conn
    && |s.trace| <= |trace| && trace[..|s.trace|] == s.trace
    && (!s.ok ==> trace == s.trace && outcome == Failed(CannotConnect))
    && (s.ok && buffer.None? ==> trace == s.trace && outcome == Failed(InvalidArgument))
    && (s.ok && buffer.Some? && !Live(s.conn) ==> trace == s.trace && outcome == Failed(NotConnected))
    && (s.ok && buffer.Some? && Live(s.conn) ==> Sent(buffer.value, failAt, trace[|s.trace|..], outcome))
  }

  method Perform(c: Conn, attempt: ConnectOutcome, failAt: Option<nat>, buffer: Option<seq<byte>>)
    returns (next: Conn, trace: seq<Event>, outcome: Outcome)
    ensures Job(c, attempt, failAt, buffer, next, trace, outcome)
  {
    var s := Connect(c, attempt);
    next := s.conn;
    if !s.ok {
      return next, s.trace, Failed(CannotConnect);
    }
    if buffer.None? {
      return next, s.trace, Failed(InvalidArgument);
    }
    var sent;
    sent, outcome := SendToPrinter(s.conn, buffer.value, failAt);
    trace := s.trace + sent;
    assert trace[|s.trace|..] == sent;
    assert !Live(s.conn) ==> trace == s.trace;
  }

  /** `print_text`. */
  method PrintText(c: Conn, attempt: ConnectOutcome, failAt: Option<nat>,
                   textBytes: seq<byte>, fontSize: string, alignment: string, bold: bool)
    returns (next: Conn, trace: seq<Event>, outcome: Outcome)
    ensures Job(c, attempt, failAt, Some(TextBuffer(textBytes, fontSize, alignment, bold)), next, trace, outcome)
  {
    next, trace, outcome := Perform(c, attempt, failAt, Some(TextBuffer(textBytes, fontSize, alignment, bold)));
  }

  /** `print_qr_code`: raises after connecting when the size or the data
      length cannot be encoded, or when the strict UTF-8 encoding of the
      data raised (`utf8Data` is `None`: a lone surrogate in the string). */
  method PrintQrCode(c: Conn, attempt: ConnectOutcome, failAt: Option<nat>, utf8Data: Option<seq<byte>>, size: int)
    returns (next: Conn, trace: seq<Event>, outcome: Outcome)
    ensures Job(c, attempt, failAt,
                if utf8Data.Some? && QrEncodable(utf8Data.value, size) then Some(QrBuffer(utf8Data.value, size)) else None,
                next, trace, outcome)
  {
    var buffer := if utf8Data.Some? && QrEncodable(utf8Data.value, size) then Some(QrBuffer(utf8Data.value, size)) else None;
    next, trace, outcome := Perform(c, attempt, failAt, buffer);
  }

  /** `print_barcode`: a CODE128 request raises after connecting when the
      data is too long or not ASCII. */
  method PrintBarcode(c: Conn, attempt: ConnectOutcome, failAt: Option<nat>, data: string, barcodeType: string)
    returns (next: Conn, trace: seq<Event>, outcome: Outcome)
    ensures Job(c, attempt, failAt,
                if BarcodeEncodable(data, barcodeType) then Some(BarcodeBuffer(data, barcodeType)) else None,
                next, trace, outcome)
  {
    var buffer := if BarcodeEncodable(data, barcodeType) then Some(BarcodeBuffer(data, barcodeType)) else None;
    next, trace, outcome := Perform(c, attempt, failAt, buffer);
  }

  /** `feed_paper`. */
  method FeedPaper(c: Conn, attempt: ConnectOutcome, failAt: Option<nat>, lines: int)
    returns (next: Conn, trace: seq<Event>, outcome: Outcome)
    ensures Job(c, attempt, failAt, Some(FeedBuffer(lines)), next, trace, outcome)
  {
    next, trace, outcome := Perform(c, attempt, failAt, Some(FeedBuffer(lines)));
  }

  /** What a print operation promises its caller: when connecting fails
      nothing is written and `CannotConnect` is raised; the send-time
      "not connected" error surfaces exactly when a fresh `connect()`
      returned false, since `_connect` reports success then too; a
      completed job wrote exactly its buffer; and the connection state is
      whatever `_connect` left, even after a failed write. */
  lemma JobGuarantees(c: Conn, attempt: ConnectOutcome, failAt: Option<nat>, buffer: Option<seq<byte>>,
                      next: Conn, trace: seq<Event>, outcome: Outcome)
    requires Job(c, attempt, failAt, buffer, next, trace, outcome)
    ensures !Connect(c, attempt).ok ==> Written(trace) == [] && outcome == Failed(CannotConnect)
    ensures outcome == Failed(NotConnected) <==> !Live(c) && attempt == ReturnedFalse && buffer.Some?
    ensures outcome == Failed(NotConnected) ==> Written(trace) == []
    ensures outcome == Done ==> buffer.Some? && Flatten(Written(trace)) == buffer.value
    ensures next == Connect(c, attempt).conn
  {
    var s := Connect(c, attempt);
    assert Written(s.trace) == [] by {
      if |s.trace| > 0 {
        assert s.trace == [ConnectAttempt];
        assert s.trace[1..] == [];
      }
    }
    if s.ok && buffer.Some? && Live(s.conn) {
      var sent := trace[|s.trace|..];
      assert trace == s.trace + sent;
      WrittenAppend(s.trace, sent);
      if outcome == Done {
        SentReassembles(buffer.value, failAt, sent);
      }
    }
  }

  /** A feed of zero (or fewer) lines on a live client writes nothing. */
  lemma FeedNothing(c: Conn, attempt: ConnectOutcome, failAt: Option<nat>, lines: int,
                    next: Conn, trace: seq<Event>, outcome: Outcome)
    requires Live(c) && lines <= 0
    requires Job(c, attempt, failAt, Some(FeedBuffer(lines)), next, trace, outcome)
    ensures trace == [] && outcome == Done
  {
    FeedBufferIsLineFeeds(lines);
  }

  /** A 47-byte job on a live client whose second write raises: the
      first two frames (40 bytes) went out, the third never did, and the
      coordinator still believes it is connected. */
  lemma SecondOfThreeWritesFails(c: Conn, data: seq<byte>, next: Conn, trace: seq<Event>, outcome: Outcome)
    requires Live(c) && Consistent(c) && |data| == 47
    requires Job(c, Linked, Some(1), Some(data), next, trace, outcome)
    ensures outcome == Failed(WriteFailed(1))
    ensures |Written(trace)| == 2 && Flatten(Written(trace)) == data[..40]
    ensures next == c && next.isConnected
  {
    assert trace[0..] == trace;
    FramesIndexed(data);
    SentStopsAtFailure(data, 1, trace);
  }
}
